=== FILE: README.md ===
# Skill matrix core, modelled in Dafny

This project models the core rules of a desktop application that tracks warehouse
workers' skill levels. A *skill vector* is a sequence of levels 1..5. It is aligned
by position with a fixed taxonomy of work categories, and the categories are
grouped into four editing tabs. The model covers:

- **The worker table** (`WorkerTable`, `LevelsCodec`, `Decimal`, `PyText`).
  - A vector is stored as comma-joined text. It is read back by dropping
    brackets, splitting on commas and applying Python's `int`.
  - The table is a sequence of rows with an AUTOINCREMENT id and a UNIQUE name.
  - Insert, lookup by name, listing, update and delete are modelled, including
    the IntegrityError the uniqueness constraint raises.
- **The main window's logic** (`Taxonomy`, `Vectors`, `Editor`).
  - The group → categories taxonomy and its flattening.
  - The categories of each tab.
  - A tab's slice of a stored vector, cut or padded with 1 to the tab's size.
  - The save / new worker / select / delete decisions and the
    `selected_worker` / `unsaved_changes` flags.
- **The overall tab** (`Overall`): the element-wise sum of every worker's vector.
  It grows to cover the longest vector.
- **The comparison view** (`Comparison`): selected workers' vectors fitted to the
  category count. Names the store lacks are skipped.
- **The worker record** (`WorkerRecords`): default levels and the dictionary
  round-trip.
- **The spreadsheet export** (`ExcelExport`): the first-seen union of categories,
  the rows, and the fill colours.
- **The PDF export** (`PdfLayout`): pagination, grid slots, the per-worker skip
  rule, the label-offset sectors, the radial scale, polygon closure and the
  splitting of labels into lines.
  - The page loops are folded over a store of level lists addressed by
    reference, because a Python list is shared by every record that holds
    it. Closing the polygon in place changes the list in that store.

All the model's values are immutable and all its operations are pure.
- `Wrappers` holds `Option` and `Result`.
- Python exceptions become `Err` values: `IntegrityError` and `ValueError` from
  the store, `IndexError` from the spreadsheet export.
- Dialog replies and the values in the level combo boxes are inputs.
- Every table the store can reach satisfies `WorkerTable.Valid`: names are
  unique, ids are unique and at most the AUTOINCREMENT counter, and every row
  decodes. `Empty` establishes it and every writer preserves it.
- Where an operation is stated only for valid tables (`Update`, `Delete` and
  the editor operations above them), the `requires Valid(t)` is this invariant.
  It is not an extra demand on callers.

Some behaviours of the code that the model keeps as they are:

- With no workers, the overall chart receives an empty list.
- The overall sum has as many columns as the longer of the category list and
  the longest vector; entries past the category count are summed too.
- The spreadsheet header's first cell is `名前`.
- The exporters do not reconcile lengths:
  - the PDF export skips a mismatched worker's chart;
  - the spreadsheet reads `skill_levels[categories.index(c)]`, which raises when
    the list is too short.
- `WorkerData` keeps explicitly given levels whatever their length.
- The store functions take a connection and commit after each statement;
  nothing serialises concurrent writers.

## Model

| member | source | states |
|---|---|---|
| WorkerTable.Empty | src/data/db_utils.py:3-11 | the freshly created table has no rows and satisfies the table invariant |
| WorkerTable.Find | src/data/db_utils.py:38 | `WHERE name=?` finds the first row carrying the name, and finds nothing exactly when no row carries it |
| WorkerTable.Insert | src/data/db_utils.py:14-19 | the invariant is preserved; IntegrityError is raised exactly when the name is already stored, and then the table is unchanged; otherwise one row is appended with the encoded levels and an id above the counter |
| WorkerTable.InsertIdFresh | src/data/db_utils.py:8 | a new row's id is strictly greater than every id already in the table |
| WorkerTable.GetByName | src/data/db_utils.py:35-44 | an absent name gives `None` rather than an error; a stored name gives that row's id, name and decoded levels |
| WorkerTable.GetAll | src/data/db_utils.py:22-32 | every row in table order with its levels decoded; it never fails on a reachable table |
| WorkerTable.ReadAll | src/data/db_utils.py:28-31 | the loop decodes each row in order and succeeds when every row's text decodes |
| WorkerTable.Read | src/data/db_utils.py:28-31 | a row is read exactly when its stored text decodes; the record keeps the row's id and name and takes the decoded levels |
| WorkerTable.Update | src/data/db_utils.py:47-52 | absent `old_name` is a silent no-op; a `new_name` held by another row raises IntegrityError with no change; otherwise only the `old_name` row gets the new name and encoded levels, and every other row and the counter are untouched |
| WorkerTable.Delete | src/data/db_utils.py:55-59 | the name is gone afterwards, an absent name is a no-op, and every other row keeps its place and content |
| WorkerTable.InsertThenGet | src/data/db_utils.py:14-44 | a worker inserted under a fresh name is read back with the next id, that name and exactly the inserted levels |
| WorkerTable.UpdateThenGet | src/data/db_utils.py:47-52 | after a successful update the levels are found under the new name, and a renamed worker's old name is gone |
| WorkerTable.DeleteIdempotent | src/data/db_utils.py:58 | deleting a name twice leaves the same table as deleting it once |
| LevelsCodec.Texts | src/data/db_utils.py:17 | `map(str, levels)` gives one decimal spelling per level |
| LevelsCodec.ParseAll | src/data/db_utils.py:30 | the list comprehension succeeds exactly when every piece is an integer to `int`, and gives each piece's value in order |
| LevelsCodec.ParseTexts | src/data/db_utils.py:30 | `int` applied to the `str` of every level gives the levels back |
| LevelsCodec.TextsPlain | src/data/db_utils.py:17 | no piece written by `str` contains a comma or a bracket |
| LevelsCodec.Encode | src/data/db_utils.py:17 | the stored text of a non-empty vector splits at its commas back into the `str` of each level, in order |
| LevelsCodec.Decode | src/data/db_utils.py:30 | every failure is ValueError, and a decoded vector is empty exactly when the stored text is empty (success and failure per piece: `DecodePieces`, `DecodeRejects`) |
| LevelsCodec.EncodeEmpty | src/data/db_utils.py:17 | the stored text is empty exactly for the empty vector, which is what makes the falsy branch of the reader fire |
| LevelsCodec.EncodeNoBrackets | src/data/db_utils.py:17 | the stored text contains no bracket |
| LevelsCodec.UnwrapBrackets | src/data/db_utils.py:30 | removing `[` and `]` from bracket-free text in one pair of brackets gives the text |
| LevelsCodec.DecodePieces | src/data/db_utils.py:30 | non-empty text whose unbracketed form is a comma-join of comma-free integer pieces decodes to those integers |
| LevelsCodec.DecodeRejects | src/data/db_utils.py:30 | non-empty text whose unbracketed form is a comma-join of comma-free pieces, one of which `int` rejects, raises ValueError |
| LevelsCodec.DecodeEncode | src/data/db_utils.py:17-30 | decoding what the writer stored gives the original vector, the empty vector included |
| LevelsCodec.DecodeBracketed | src/data/db_utils.py:42 | the bracketed spelling of a non-empty vector decodes to the same vector |
| LevelsCodec.DecodeEmptyBrackets | src/data/db_utils.py:42 | `"[]"` does not decode: its single piece `""` makes `int` raise ValueError |
| LevelsCodec.ParseAllValues | src/data/db_utils.py:30 | pieces that each parse to the matching value parse, together, to the vector of values |
| LevelsCodec.JsonPieces | src/data/db_utils.py:42 | after splitting a JSON array on commas, every piece but the first carries one leading space |
| LevelsCodec.JsonPiece | src/data/db_utils.py:42 | each JSON piece is free of commas and brackets and parses to its level |
| LevelsCodec.DecodeJson | src/data/db_utils.py:42 | text in JSON-array spelling `[1, 2, 3]` also decodes to the vector |
| Decimal.DigitChar | src/data/db_utils.py:17 | the character written for a digit is an ASCII digit of that value |
| Decimal.NatToString | src/data/db_utils.py:17 | `str` of a natural number is a non-empty digit string of that value, without a leading zero |
| Decimal.IntToString | src/data/db_utils.py:17 | `str` of an integer starts with `-` exactly when it is negative, and is digits otherwise |
| Decimal.Numeral | src/data/db_utils.py:30 | a stripped piece is a number exactly when it is an optional sign followed by at least one ASCII digit |
| Decimal.TrimEnd | src/data/db_utils.py:30 | the tail cut away is exactly the trailing white space `int` skips |
| Decimal.ParseInt | src/data/db_utils.py:30 | text made only of the white space `int` skips, the empty text included, is not a number |
| Decimal.ParseIntTrims | src/data/db_utils.py:30 | `int(s)` is the numeral left once exactly the leading and trailing white space `int` skips is cut away |
| Decimal.TrimEndIsTrimRight | src/data/db_utils.py:30 | on text without U+001C to U+001F, the tail `int` skips is the tail `rstrip()` removes |
| Decimal.ParseIntStrips | src/data/db_utils.py:30 | on text without U+001C to U+001F, `int` reads the numeral `strip()` leaves, so text that is only white space, or empty, fails |
| Decimal.SeparatorNotSkipped | src/data/db_utils.py:30 | `strip()` removes U+001C but `int` does not: `"\x1c5".strip()` is `"5"`, yet `int("\x1c5")` raises ValueError |
| Decimal.IntToStringRoundTrip | src/data/db_utils.py:17-30 | `int(str(x)) == x` for every integer |
| Decimal.LeadingSpaceTolerated | src/data/db_utils.py:42 | `int(" " + str(x)) == x`: the space after a comma is ignored |
| PyText.TrimLeft | src/main_window.py:263 | the leading whitespace is removed, and no more than that |
| PyText.TrimRight | src/main_window.py:263 | the trailing whitespace is removed, and no more than that |
| PyText.Strip | src/main_window.py:263 | `strip()` gives a contiguous piece of the input, with only whitespace cut on either side, that neither starts nor ends with whitespace |
| PyText.StripNoSpace | src/main_window.py:263 | text without whitespace is unchanged by `strip()` |
| PyText.Split | src/data/db_utils.py:30 | `split(',')` gives at least one piece and no piece contains the separator |
| PyText.SplitNoSep | src/data/db_utils.py:30 | text without the separator splits into itself alone |
| PyText.SplitPiece | src/data/db_utils.py:30 | a separator-free head followed by the separator splits off as the first piece |
| PyText.JoinShape | src/data/db_utils.py:17 | `','.join`: empty for no pieces, otherwise it starts with the first piece and ends with the last, and holds the separator when there are two pieces or more (its inverse is `SplitJoin`) |
| PyText.SplitJoin | src/data/db_utils.py:17-30 | splitting a join of separator-free pieces gives the pieces back |
| PyText.RemoveChar | src/data/db_utils.py:30 | `replace(c, "")` leaves no `c` and changes text that has none |
| PyText.RemoveCharAppend | src/data/db_utils.py:30 | removing a character distributes over concatenation |
| PyText.Replace | src/ui/utils/pdf_exporter.py:225 | `str.replace`: empty text stays empty, a pattern and replacement of one length keep the length, and every character comes from the text or the replacement (partners: `ReplaceAt`, `ReplaceAbsent`, `ReplaceWhole`) |
| PyText.ReplaceAt | src/ui/utils/pdf_exporter.py:225 | every occurrence is replaced, left to right: with the first occurrence after the text `a`, the result is `a`, then the replacement, then the rest of the text replaced in turn |
| PyText.ReplaceAbsent | src/ui/utils/pdf_exporter.py:225 | replacing a pattern that does not occur changes nothing |
| PyText.HeadAbsent | src/ui/utils/pdf_exporter.py:225 | a pattern whose first character is missing from the text does not occur in it |
| PyText.ReplaceWhole | src/ui/utils/pdf_exporter.py:225 | replacing a whole text that is the pattern gives the replacement |
| PyText.ReplaceKeepsNewline | src/ui/utils/pdf_exporter.py:225 | a newline survives the replacement of a pattern without newlines |
| PyText.ReplaceIntroducesNewline | src/ui/utils/pdf_exporter.py:225 | an occurring pattern replaced by text with a newline leaves a newline |
| PyText.SplitAtSeparator | src/ui/utils/pdf_exporter.py:226 | text containing the separator splits into at least two pieces |
| Vectors.Ones | src/ui/utils/worker_data.py:6 | `[1] * n` has `max(n, 0)` entries, all 1 |
| Vectors.PySlice | src/main_window.py:442 | `xs[a:b]` clamps both bounds to the length and keeps the entries in between |
| Vectors.Fit | src/main_window.py:391-392 | the fitted vector has exactly `n` entries; entry `j` is `xs[j]` where it exists, otherwise 1 |
| Vectors.FitExact | src/main_window.py:391-392 | a vector already of the category count is unchanged |
| Vectors.FitIdempotent | src/main_window.py:391-392 | fitting twice to the same count is fitting once |
| Vectors.FitPrefix | src/ui/data_analysis_tab.py:112-113 | fitting to a shorter count keeps a prefix; fitting to a longer count keeps the whole vector in front |
| Vectors.FitKeepsLevelRange | src/ui/data_analysis_tab.py:112-113 | levels in 1..5 stay in 1..5 after fitting |
| Vectors.FitExamples | src/ui/data_analysis_tab.py:112-113 | `[5,3]` fits to `[5,3,1,1,1]` and `[5,3,4,2,1,9]` to `[5,3,4,2,1]` for five categories |
| Taxonomy.Flatten | src/main_window.py:424-427 | a category is in the flattened list exactly when some group lists it |
| Taxonomy.FlattenSplit | src/main_window.py:424-427 | the flattening is the earlier groups' categories, then the group's own, then the later groups' |
| Taxonomy.GroupsFacts | src/main_window.py:26-31 | the four group names are distinct and the taxonomy has 15 categories |
| Taxonomy.CategoriesFromDb | src/main_window.py:467-481 | the result is the flattened taxonomy (15 names, group by group) whatever the stored workers hold |
| Taxonomy.TabTitles | src/main_window.py:99-130 | one tab per group, titled by the group name, and after them exactly the overall, report and analysis tabs, in that order |
| Taxonomy.TitlesLookUp | src/main_window.py:99-130 | looking a tab title up in the taxonomy gives each group tab its own group's categories and the overall, report and analysis tabs nothing |
| Taxonomy.TabText | src/main_window.py:563 | `tabText(i)` is group `i`'s name for a group tab, then the overall, report and analysis titles, and empty text for an index with no tab |
| Taxonomy.Lookup | src/main_window.py:564 | `categories.get(title, [])` gives the group's categories, or nothing for a title that names no group |
| Taxonomy.CategoriesForTab | src/main_window.py:554-564 | a group tab's index gives that group's categories; an index past the groups, or an empty flattened list, gives nothing |
| Taxonomy.Bounds | src/main_window.py:432-441 | the slice never runs backwards, and a title naming no group gives `[0:0]` |
| Taxonomy.BoundsOfGroup | src/main_window.py:432-441 | the slice of group `i` starts at the total size of the earlier groups and ends after its own size |
| Taxonomy.BoundsAbsent | src/main_window.py:432-441 | a tab title that names no group gives the empty slice `[0:0]` |
| Taxonomy.GroupPosition | src/main_window.py:424-427 | the `j`-th category of group `i` sits at position start+`j` of the flattened taxonomy |
| Taxonomy.TabSliceEntries | src/main_window.py:442-446 | a group tab's chart has one entry per category of that group; entry `j` is the stored level at start+`j`, or 1 when the vector is too short |
| Taxonomy.TabSlice | src/main_window.py:442-446 | the chart has one entry per category of the tab, each a stored level or the padding 1 |
| Taxonomy.TabSliceOtherTabs | src/main_window.py:554-564 | the tabs after the groups chart nothing |
| Editor.SaveWorker | src/main_window.py:257-311 | a save is rejected exactly when the stripped name is empty or held by a worker other than the selected one, with store and state unchanged; any other save is an update with a selection and an add without one; an update renames the selected worker and selects the new name; an add appends a worker and clears the selection; `unsaved_changes` is cleared only on success |
| Editor.SaveSelected | src/main_window.py:277-293 | with a selection: rejected, with nothing changed, exactly when the name is empty or a rename onto another worker's name; every other save, including a rename to a free name, updates the selected worker's row and selects the new name |
| Editor.SaveNew | src/main_window.py:294-309 | without a selection: rejected, with nothing changed, exactly when the name is empty or taken; every other name is added as one inserted worker and the selection cleared |
| Editor.SaveThenGet | src/main_window.py:277-309 | after an add, or an update of a worker the store still holds, the typed levels are stored under the stripped name |
| Editor.DeleteThenSaveLost | src/main_window.py:277-293 | deleting the selected worker keeps it selected, so saving it again under its name is reported as an update while the store holds no such worker |
| Editor.SaveWorkerFixed | src/main_window.py:257-311 | a save that clears a selection the store no longer holds: rejected exactly when `save_worker` would reject the name; otherwise an update of a held selection or an add, and the typed levels are stored under the stripped name |
| Editor.DeleteThenSaveFixed | src/main_window.py:314-332 | with that fix, deleting the selected worker and saving it again adds it back with the typed levels |
| Editor.OnSkillLevelChanged | src/main_window.py:367-373 | with the skip flag set nothing changes; otherwise the edits are marked unsaved and the selection is kept |
| Editor.LiveTabChart | src/main_window.py:390-392 | the live chart has one entry per category of the current tab: the box value where there is one, otherwise 1 |
| Editor.AskToSave | src/main_window.py:221-227 | with unsaved edits a Cancel stops everything; a Yes runs the save; a No, or no unsaved edits, leaves the store as it is |
| Editor.NewWorker | src/main_window.py:214-248 | unless cancelled, the selection and the unsaved flag end up cleared |
| Editor.NewWorkerAfterRejectedSave | src/main_window.py:224-248 | a Yes whose save is rejected still discards the edits: store unchanged, flag cleared |
| Editor.OnWorkerSelected | src/main_window.py:160-211 | unless cancelled, the clicked worker becomes selected and the unsaved flag is cleared |
| Editor.DeleteWorker | src/main_window.py:314-332 | only a highlighted worker confirmed with Yes is deleted, which clears the unsaved flag; the selection is never changed |
| Editor.TabChart | src/main_window.py:408-465 | without a selection the tab shows level 1 per category; a selected worker missing from the store leaves the chart alone; otherwise the chart shows the tab's slice of the stored vector |
| Editor.AddThenSelect | src/main_window.py:503-552 | after adding a worker and selecting it, each tab charts its slice of exactly the saved vector |
| Overall.ColumnSumBeyond | src/ui/overall_tab.py:29-32 | no worker contributes to a position past its vector's end |
| Overall.UpdateChart | src/ui/overall_tab.py:15-35 | with no workers the chart gets `[]`; otherwise it gets `max(category count, longest vector)` entries, entry `i` being the sum of `levels[i]` over the workers that have a position `i` |
| Overall.Aggregated | src/ui/overall_tab.py:17-32 | no workers give `[]`; otherwise the sums cover at least every category and every worker's whole vector |
| Overall.MaxLenBounds | src/ui/overall_tab.py:29-32 | no worker's vector is longer than the longest |
| Overall.ColumnSumConcat | src/ui/overall_tab.py:25-30 | the sum over two groups of workers is the sum of the groups' sums |
| Overall.MaxLenConcat | src/ui/overall_tab.py:29-32 | the longest vector of two groups is the longer of the two groups' longest |
| Overall.Single | src/ui/overall_tab.py:26-32 | one worker's sum is its own level at each position, and the length is its vector's |
| Overall.RemoveAt | src/ui/overall_tab.py:25-32 | taking one worker out removes exactly its entry from each position's sum |
| Overall.PermutationInvariant | src/ui/overall_tab.py:25-32 | workers that are a permutation of each other give the same sums and the same longest vector |
| Overall.AggregatedOrderFree | src/ui/overall_tab.py:17-35 | the overall chart does not depend on the order in which the store lists the workers |
| Overall.Example | src/ui/overall_tab.py:23-32 | `[1,2,3]`, `[5,4,3]` and `[2,2,2]` over three categories sum to `[8,8,8]` |
| Comparison.StoredLevels | src/ui/data_analysis_tab.py:110-112 | the vector is the decoded levels of the row that carries the name |
| Comparison.Present | src/ui/data_analysis_tab.py:109-111 | only stored names are kept, and the result is no longer than the selection |
| Comparison.PresentAppend | src/ui/data_analysis_tab.py:109-111 | filtering a selection made of two parts filters each part and keeps them in order |
| Comparison.PresentSingle | src/ui/data_analysis_tab.py:109-111 | a single selected name is kept exactly when the store holds it |
| Comparison.Lookup | src/ui/data_analysis_tab.py:110-111 | in a table that keeps the schema's invariant, `get_worker_by_name` finds a vector exactly for a stored name, and it is that worker's stored vector |
| Comparison.PresentMembers | src/ui/data_analysis_tab.py:109-111 | a name is kept exactly when it was selected and is stored |
| Comparison.PlotData | src/ui/data_analysis_tab.py:109-114 | one vector per selected name the lookup finds, never more than the selection |
| Comparison.PlotDataAt | src/ui/data_analysis_tab.py:109-114 | vector `k` is the looked-up vector of kept name `k`, cut or padded to `n` entries: selection order is kept |
| Comparison.PlotDataEntries | src/ui/data_analysis_tab.py:109-114 | every plotted vector has exactly the category count of entries and is its worker's stored vector fitted to that count |
| Comparison.UpdateComparisonChartAsWritten | src/ui/data_analysis_tab.py:116-117 | the chart is redrawn exactly when some vector was produced, with the whole selection as the legend |
| Comparison.LabelShift | src/ui/data_analysis_tab.py:117 | with "A" missing and "B" stored, selecting both labels B's line "A" |
| Comparison.UpdateComparisonChart | src/ui/data_analysis_tab.py:103-117 | redrawn exactly when some vector was produced; the labels are the selected names the store holds, in selection order, and label `k` names the worker whose fitted vector is line `k` |
| WorkerRecords.New | src/ui/utils/worker_data.py:2-8 | without levels every category starts at 1; given levels are kept unchanged, whatever their length |
| WorkerRecords.ToDict | src/ui/utils/worker_data.py:10-14 | the dictionary holds the worker's name and its own levels |
| WorkerRecords.FromDict | src/ui/utils/worker_data.py:16-22 | the record takes the dictionary's name and the caller's categories; given levels are kept as they are, and null levels give every category level 1 |
| WorkerRecords.NoLevelsDefault | src/ui/utils/worker_data.py:16-22 | a dictionary with null levels builds the same worker as the constructor without levels, with the empty vector fitted to the category count |
| WorkerRecords.DictRoundTrip | src/ui/utils/worker_data.py:10-22 | `from_dict(w.to_dict(), w.categories)` rebuilds `w` |
| WorkerRecords.DictForgetsCategories | src/ui/utils/worker_data.py:10-14 | the dictionary does not hold the categories: records that differ only there give the same dictionary |
| WorkerRecords.DefaultLevelsFitted | src/ui/utils/worker_data.py:5-6 | default levels are what fitting the empty vector to the category count gives |
| ExcelExport.FirstIndex | src/ui/utils/excel_exporter.py:29 | `list.index` gives the first position holding the value |
| ExcelExport.Distinct | src/ui/utils/excel_exporter.py:10-14 | the category union has no repeats and holds exactly the categories of the listing |
| ExcelExport.DistinctFirstSeen | src/ui/utils/excel_exporter.py:10-14 | the category union lists the categories in the order of their first appearance |
| ExcelExport.FirstIndexPrefix | src/ui/utils/excel_exporter.py:13 | a value's first position in a prefix is its first position in the whole list |
| ExcelExport.AllListedMembers | src/ui/utils/excel_exporter.py:11-12 | a category is listed exactly when some worker has it |
| ExcelExport.CellFor | src/ui/utils/excel_exporter.py:27-32 | a category the worker lacks gives a blank; one it has gives the level at the category's first index, and IndexError exactly when that index is past the levels |
| ExcelExport.CellsValue | src/ui/utils/excel_exporter.py:27-32 | cell `j` of a built row is category `j`'s level, or a blank when the worker lacks it |
| ExcelExport.Cells | src/ui/utils/excel_exporter.py:27-32 | one cell per union category, and the row fails exactly when some category's level is missing |
| ExcelExport.DataRows | src/ui/utils/excel_exporter.py:25-33 | one row per worker in input order: the name, then that worker's cells |
| ExcelExport.CellsOk | src/ui/utils/excel_exporter.py:28-30 | a worker's row is built exactly when every one of its categories has a level |
| ExcelExport.ExportToExcel | src/ui/utils/excel_exporter.py:16-33 | a sheet titled "Skill Matrix" with header `名前` + union and one header-length row per worker; category `c` holds the level at `c`'s first index, or a blank when the worker lacks `c`; IndexError exactly when a worker lacks a level |
| ExcelExport.Fill | src/ui/utils/excel_exporter.py:38-48 | only integer cells are filled: 5 green, 4 yellow, 3 orange, 2 pink, and every other integer white |
| ExcelExport.Fills | src/ui/utils/excel_exporter.py:36-48 | fills cover every row after the header, cell by cell |
| ExcelExport.Hex | src/ui/utils/excel_exporter.py:40-48 | each fill's `start_color` is six hexadecimal digits, and `FFFFFF` is white's alone |
| ExcelExport.FillCodesDistinct | src/ui/utils/excel_exporter.py:39-46 | the levels 2 to 5 are painted with four different RGB codes |
| ExcelExport.FillDistinguishesLevels | src/ui/utils/excel_exporter.py:39-46 | the levels 2 to 5 get four different colours |
| ExcelExport.NameCellsUnfilled | src/ui/utils/excel_exporter.py:36-38 | no name cell is ever filled |
| PdfLayout.PageCount | src/ui/utils/pdf_exporter.py:64-65 | the page count is the least number of 8-worker pages holding everyone |
| PdfLayout.PageCountExamples | src/ui/utils/pdf_exporter.py:65 | 0, 1, 8, 9, 16 and 17 workers take 0, 1, 1, 2, 2 and 3 pages |
| PdfLayout.SlotOf | src/ui/utils/pdf_exporter.py:72-75 | the slot is one of 4 columns by 2 rows, and page, row and column together give back the index |
| PdfLayout.SlotsDistinct | src/ui/utils/pdf_exporter.py:72-75 | two workers on the same page never share a slot |
| PdfLayout.StartsPassed | src/ui/utils/pdf_exporter.py:242-257 | at most `k` of the first `k` sector boundaries lie below an angle |
| PdfLayout.Sector | src/ui/utils/pdf_exporter.py:242-257 | an angle falls in one of the eight sectors |
| PdfLayout.LabelOffset | src/ui/utils/pdf_exporter.py:239-259 | every angle in [0°, 360°] gets one of the eight nudges, and `(0,0)` is returned exactly outside that range |
| PdfLayout.LabelOffsetBySector | src/ui/utils/pdf_exporter.py:242-257 | the nudge is the table entry of the sector the angle lies in, the last sector wrapping round to the first |
| PdfLayout.LabelOffsetExamples | src/ui/utils/pdf_exporter.py:239-259 | 0°, 90°, 180°, 270° and 360° get (5,-5), (0,5), (-5,-5), (0,-10) and (5,-5); -1° gets (0,0) |
| PdfLayout.AngleDegrees | src/ui/utils/pdf_exporter.py:146 | category `i` of `n` sits at `360·i/n` degrees, which lies in [0°, 360°) for every real category |
| PdfLayout.CategoryLabelsNudged | src/ui/utils/pdf_exporter.py:208-229 | every category angle lies in [0°, 360°), so every label is nudged |
| PdfLayout.Closure | src/ui/utils/pdf_exporter.py:146-148 | a non-empty list grows by one and ends with its first element; an empty one stays empty |
| PdfLayout.Rings | src/ui/utils/pdf_exporter.py:166-167 | four scale circles, the outer one at the full radius |
| PdfLayout.LevelsOnRings | src/ui/utils/pdf_exporter.py:166-178 | levels 1 to 4 land on the four circles, and level 5 at 1.25 times the radius |
| PdfLayout.ScaleMonotone | src/ui/utils/pdf_exporter.py:178 | a higher level is drawn further from the centre |
| PdfLayout.ScaledRadius | src/ui/utils/pdf_exporter.py:178 | `radius * d / 4`: four times the distance is `radius*d`, level 0 is the centre and level 4 the outer circle |
| PdfLayout.CalculateDataPoints | src/ui/utils/pdf_exporter.py:174-183 | one point per data entry, each at distance `radius*d/4` |
| PdfLayout.PolygonRadii | src/ui/utils/pdf_exporter.py:146-154 | empty data gives no points; otherwise point `i` lies at `radius*data[i]/4` and one extra point repeats the first, closing the polygon |
| PdfLayout.PolygonCloses | src/ui/utils/pdf_exporter.py:146-157 | a non-empty polygon has `n+1` points and ends where it starts |
| PdfLayout.LabelLines | src/ui/utils/pdf_exporter.py:223-226 | a label yields at least one line and no line contains a newline |
| PdfLayout.PlainLabelOneLine | src/ui/utils/pdf_exporter.py:225-226 | a newline-free label without either long name is drawn as itself, on one line |
| PdfLayout.WaterSpiderSplit | src/ui/utils/pdf_exporter.py:225-226 | ウォータースパイダー is drawn as the two lines ウォーター and スパイダー |
| PdfLayout.EveryLabelerSplit | src/ui/utils/pdf_exporter.py:225-226 | エブリラベラー is drawn as the two lines エブリ and ラベラー |
| PdfLayout.LongLabelBroken | src/ui/utils/pdf_exporter.py:225-226 | a label containing ウォータースパイダー or エブリラベラー is drawn on at least two lines |
| PdfLayout.SkipRuleGuards | src/ui/utils/pdf_exporter.py:84-89 | a worker passes both skip tests exactly when it is chartable, and then the chart's own guard at line 142 never refuses it |
| PdfLayout.RadarChart | src/ui/utils/pdf_exporter.py:139-160 | the closed polygon has one point more than there are levels, point `i` at `radius*level_i/4`, and ends where it starts; category `i` gets the nudge of its angle's sector and the label lines of its own name |
| PdfLayout.PanelFor | src/ui/utils/pdf_exporter.py:72-105 | each worker gets its name and slot; the chart, separator and name are drawn exactly when the worker passes the skip rule |
| PdfLayout.PagePanels | src/ui/utils/pdf_exporter.py:67-70 | one page's pass visits, in order, exactly the workers with index `8p` to `8p+7` that exist |
| PdfLayout.ExportPdf | src/ui/utils/pdf_exporter.py:64-105 | `ceil(n/8)` pages of 1 to 8 cells each; cell `k` of page `p` is worker `8p+k` |
| PdfLayout.EveryWorkerPlaced | src/ui/utils/pdf_exporter.py:67-75 | worker `i` appears on page `i//8` at position `i%8` |
| PdfLayout.NineWorkers | src/ui/utils/pdf_exporter.py:64-96 | nine workers take two pages of 8 and 1; each worker's chart is drawn exactly when that worker passes the skip rule, whatever the others hold |
| PdfLayout.Resolve | src/ui/utils/pdf_exporter.py:68 | item `i` read as a record: its key, name and categories, and the list its reference points at |
| PdfLayout.LeftBehind | src/ui/utils/pdf_exporter.py:148 | closed on a copy, the caller's list is unchanged; closed in place, a non-empty list grows by its first level |
| PdfLayout.DrawCell | src/ui/utils/pdf_exporter.py:76-96 | the cell drawn is `PanelFor` of the records as they stand; only the drawn item's list can change, only when it is charted, and then to what the chart leaves behind |
| PdfLayout.PageLoop | src/ui/utils/pdf_exporter.py:68-70 | one page's pass keeps every reference, and with the copy leaves the store untouched |
| PdfLayout.PagesLoop | src/ui/utils/pdf_exporter.py:67-103 | one list of cells per remaining page; every reference is kept, and with the copy the store is untouched |
| PdfLayout.ExportPdfAsWritten | src/ui/utils/pdf_exporter.py:64-105 | `ceil(n/8)` pages, and the store keeps its references |
| PdfLayout.ExportPdfFixed | src/ui/utils/pdf_exporter.py:64-105 | `ceil(n/8)` pages, and the store keeps its references |
| PdfLayout.DrawCellKeepsOthers | src/ui/utils/pdf_exporter.py:93 | drawing one item leaves every other item's list and record as they were, given the copy or unshared lists |
| PdfLayout.PageLoopPanels | src/ui/utils/pdf_exporter.py:67-75 | a page pass draws, in order, the page's cells from its start index, each as the records stood when the pass began |
| PdfLayout.PageLoopLists | src/ui/utils/pdf_exporter.py:67-96 | after a page pass each charted item of the page holds what the chart left behind, and every other item its own list |
| PdfLayout.PageLoopFrames | src/ui/utils/pdf_exporter.py:67-96 | a page pass touches no list that none of its remaining items holds |
| PdfLayout.PageLoopIsPage | src/ui/utils/pdf_exporter.py:67-75 | the pass over page `p` draws exactly page `p` of `ExportPdf` |
| PdfLayout.PageAgrees | src/ui/utils/pdf_exporter.py:67-75 | records that agree from page `q` on lay out page `q` alike |
| PdfLayout.PagesLoopPages | src/ui/utils/pdf_exporter.py:67-103 | the pages loop draws `ExportPdf`'s pages of the records as they stood before it, given the copy or unshared lists |
| PdfLayout.PagesLoopLists | src/ui/utils/pdf_exporter.py:67-103 | after the pages loop each charted item holds what the chart left behind, and every other item its own list |
| PdfLayout.PagesLoopFrames | src/ui/utils/pdf_exporter.py:67-103 | the pages loop touches no list that no item holds |
| PdfLayout.ExportFixedDrawsExportPdf | src/ui/utils/pdf_exporter.py:64-148 | with the polygon closed on a copy, the export draws exactly `ExportPdf`'s pages and leaves the store as it was, shared lists included |
| PdfLayout.ReexportRepeats | src/ui/utils/pdf_exporter.py:146-148 | with the polygon closed on a copy, a second export gives the same pages and store as the first |
| PdfLayout.ExportAsWrittenCloses | src/ui/utils/pdf_exporter.py:64-148 | as written, with unshared lists: the same pages, each charted worker's list closed (one longer, ending with its first level), and every other list untouched |
| PdfLayout.ReexportLosesCharts | src/ui/utils/pdf_exporter.py:84-89 | as written, with unshared lists, exporting a second time draws no chart for any worker |
| PdfLayout.ReexportExample | src/ui/utils/pdf_exporter.py:148 | one worker with levels `[3]` over one category is charted, its list becomes `[3, 3]`, and the second export draws only its frame |
| PdfLayout.SharedListSkipped | src/ui/utils/pdf_exporter.py:67-148 | as written, when two items share one list the first chart closes it, so the second item loses its chart in the same export; closed on a copy, both are charted |

## Left out

- The PyQt user interface is not modelled. This covers widgets, layouts, message boxes, focus handling, signals, the worker list widget, `load_workers`, `clear_input_fields` and `closeEvent`. Dialog replies and combo-box values are inputs instead.
- The excel-import, backup, data-export and report buttons only show "not implemented" messages, so they are not modelled.
- The matplotlib chart widgets are rendering only.
- SQLite I/O is not modelled: connections, commits and the row factory. `SELECT *` is taken to return rows in insertion order. A NULL `skill_levels` column is left out because the writers never store one.
- `data_manager.py` is a thin wrapper that imports functions `db_utils.py` does not define. The model uses the `db_utils` semantics directly.
- The store has no write lock in the code, so no locking is modelled. Nothing in the model is concurrent.
- Decimal.ParseInt: does not accept the underscores between digits or the non-ASCII decimal digits that Python's `int` also accepts. The store only ever writes ASCII digits.
- WorkerTable.Insert: the id counter is an unbounded `nat`. SQLite's failure once the 64-bit counter is exhausted is not modelled.
- Editor.OnSkillLevelChanged: the skip flag is an input. The code never sets `skip_skill_level_change` to True, so that branch is dead in practice.
- The PDF geometry is not modelled. This covers page sizes in points, frame positions, cos/sin placement, string widths, fonts and font fallback, the drawing calls, and the 15 fixed scale axes of `draw_chart_scale`.
- WorkerRecords.FromDict: a dictionary without a `skill_levels` key is not modelled. The source raises KeyError for it; the model's dictionary always has the field, and `None` stands for an explicit null.
- Editor.SaveThenGet: stated only after an add or an update of a worker the store still holds. The other update, after the selected worker was deleted, stores nothing (see Editor.DeleteThenSaveLost under Findings).
- PdfLayout.ExportAsWrittenCloses: the closed lists and the pages are stated only when no two items share a list. For shared lists, PdfLayout.SharedListSkipped shows the pages differ.
- PdfLayout.AngleDegrees: category angles are exact rationals `360·i/n`. The floating-point rounding of `linspace` and the conversion to degrees are not modelled.
- PdfLayout.ExportPdf: the `try/except` around `draw_radar_chart` is not modelled, because with integer levels nothing in the modelled chart can raise. Exporter file-writing failures are also left out.
- Spreadsheet saving and the output file path are not modelled. Cells are typed values: `Text`, `Level` or `Blank` for the empty string.
- Loading JSON test data in `run.py` and the entry points are left out.

## Findings

| source | as written | input that shows it | evidently intended | confidence | as-written member | corrected member |
|---|---|---|---|---|---|---|
| src/ui/data_analysis_tab.py:117 | the legend labels are the whole selection, while the plotted vectors skip names the store does not hold | select "A" and "B" when only "B" is stored: B's line is labelled "A" | one label per plotted vector, naming its worker | medium; not executed | Comparison.LabelShift | Comparison.UpdateComparisonChart |
| src/ui/utils/pdf_exporter.py:148 | `data += data[:1]` closes the polygon in place, so every charted worker's `skill_levels` grows by one | export `{"A": WorkerData("A", ["x"], [3])}` twice: the second export sees levels `[3, 3]` against one category and draws only the frame | close the polygon on a copy and leave the caller's records unchanged | medium; not executed | PdfLayout.ReexportLosesCharts | PdfLayout.ExportFixedDrawsExportPdf |
| src/ui/utils/pdf_exporter.py:148 | the in-place closure also reaches every other item holding the same list, within one export | two items "A" and "B" over category `["x"]` holding one list `[3]`: A is charted, the list becomes `[3, 3]`, and B is drawn without a chart | each item charted from its levels as they stood before the export | medium; not executed | PdfLayout.SharedListSkipped | PdfLayout.ExportFixedDrawsExportPdf |
| src/main_window.py:277-293 | deleting the selected worker leaves `selected_worker` set, so the next save takes the update branch; `UPDATE ... WHERE name=?` matches no row, yet success is reported | select "A", delete it, then save with name "A": "updated" is shown and no worker "A" is stored | a save with a deleted selection adds the worker | medium; not executed | Editor.DeleteThenSaveLost | Editor.SaveWorkerFixed |

=== FILE: comparison.dfy ===
/**
 * The worker comparison view of the analysis tab: every selected worker that
 * the store still holds is fitted to the category count and plotted; names
 * the store no longer holds are skipped.
 */
module Comparison {
  import opened Wrappers
  import WorkerTable
  import LevelsCodec
  import Vectors

  type Table = WorkerTable.Table

  /** What `update_comparison_chart` of the chart widget is called with. */
  datatype ComparisonChart = ComparisonChart(data: seq<seq<int>>, categories: seq<string>, labels: seq<string>)

  /** The stored vector of a worker the store holds. */
  function StoredLevels(t: Table, name: string): (r: seq<int>)
    requires WorkerTable.Valid(t) && WorkerTable.HasName(t, name)
    ensures forall i :: 0 <= i < |t.rows| && t.rows[i].name == name ==>
      Ok(r) == LevelsCodec.Decode(t.rows[i].skillLevels)
  {
    WorkerTable.GetByName(t, name).value.value.skillLevels
  }

  /** The selected names the store holds, in selection order. */
  function Present(t: Table, selected: seq<string>): (r: seq<string>)
    ensures |r| <= |selected|
    ensures forall k :: 0 <= k < |r| ==> WorkerTable.HasName(t, r[k])
  {
    if |selected| == 0 then []
    else
      var rest := Present(t, selected[1..]);
      assert forall k :: 1 <= k < |selected| ==> selected[k] == selected[1..][k - 1];
      if Lookup(t, selected[0]).Some? then [selected[0]] + rest else rest
  }

  /** `worker = get_worker_by_name(name); if worker:` -- the stored vector, if any. */
  function Lookup(t: Table, name: string): (r: Option<seq<int>>)
    ensures WorkerTable.Valid(t) ==> (r.Some? <==> WorkerTable.HasName(t, name))
    ensures WorkerTable.Valid(t) && r.Some? ==> r.value == StoredLevels(t, name)
  {
    match WorkerTable.GetByName(t, name) {
      case Ok(Some(w)) => Some(w.skillLevels)
      case _ => None
    }
  }

  /**
   * Names are kept in selection order: the names kept from a selection made
   * of two parts are those kept from the first part, then those from the second.
   */
  lemma {:induction false} PresentAppend(t: Table, a: seq<string>, b: seq<string>)
    ensures Present(t, a + b) == Present(t, a) + Present(t, b)
  {
    if |a| > 0 {
      assert (a + b)[0] == a[0];
      assert (a + b)[1..] == a[1..] + b;
      PresentAppend(t, a[1..], b);
    } else {
      assert a + b == b;
    }
  }

  /** A single name is kept exactly when the lookup finds it. */
  lemma PresentSingle(t: Table, x: string)
    ensures Present(t, [x]) == if Lookup(t, x).Some? then [x] else []
  {
    assert [x][1..] == [];
  }

  /** A name is kept exactly when it was selected and the store holds it. */
  lemma {:induction false} PresentMembers(t: Table, selected: seq<string>, x: string)
    requires WorkerTable.Valid(t)
    ensures x in Present(t, selected) <==> x in selected && WorkerTable.HasName(t, x)
  {
    if |selected| > 0 {
      PresentMembers(t, selected[1..], x);
      assert selected == [selected[0]] + selected[1..];
    }
  }

  /**
   * The `data_to_plot` loop: for each selected name, in order, the stored
   * vector cut or padded with 1 to `n` entries, or nothing for a name not in
   * the store.
   */
  function PlotData(t: Table, selected: seq<string>, n: nat): (r: seq<seq<int>>)
    ensures |r| == |Present(t, selected)| <= |selected|
  {
    if |selected| == 0 then []
    else
      var rest := PlotData(t, selected[1..], n);
      match Lookup(t, selected[0]) {
        case Some(levels) => [Vectors.Fit(levels, n)] + rest
        case None => rest
      }
  }

  /** The k-th plotted vector is the stored vector of the k-th present name, fitted to `n`. */
  lemma {:induction false} PlotDataAt(t: Table, selected: seq<string>, n: nat, k: nat)
    requires k < |PlotData(t, selected, n)|
    ensures Lookup(t, Present(t, selected)[k]).Some?
    ensures PlotData(t, selected, n)[k] == Vectors.Fit(Lookup(t, Present(t, selected)[k]).value, n)
  {
    var rest := PlotData(t, selected[1..], n);
    var ps := Present(t, selected[1..]);
    if Lookup(t, selected[0]).Some? {
      assert PlotData(t, selected, n) == [Vectors.Fit(Lookup(t, selected[0]).value, n)] + rest;
      assert Present(t, selected) == [selected[0]] + ps;
      if k > 0 {
        PlotDataAt(t, selected[1..], n, k - 1);
      }
    } else {
      assert PlotData(t, selected, n) == rest;
      assert Present(t, selected) == ps;
      PlotDataAt(t, selected[1..], n, k);
    }
  }

  /** Every plotted vector has `n` entries and is the fitted stored vector of its worker. */
  lemma PlotDataEntries(t: Table, selected: seq<string>, n: nat)
    requires WorkerTable.Valid(t)
    ensures forall k :: 0 <= k < |PlotData(t, selected, n)| ==>
      |PlotData(t, selected, n)[k]| == n &&
      PlotData(t, selected, n)[k] == Vectors.Fit(StoredLevels(t, Present(t, selected)[k]), n)
  {
    forall k | 0 <= k < |PlotData(t, selected, n)|
      ensures PlotData(t, selected, n)[k] == Vectors.Fit(StoredLevels(t, Present(t, selected)[k]), n)
    {
      PlotDataAt(t, selected, n, k);
    }
  }

  /**
   * `update_comparison_chart` as written: the chart is redrawn only when some
   * vector was produced, and it is given the whole selection as legend labels.
   */
  function UpdateComparisonChartAsWritten(t: Table, selected: seq<string>, allCategories: seq<string>): (r: Option<ComparisonChart>)
    requires WorkerTable.Valid(t)
    ensures r.None? <==> |Present(t, selected)| == 0
    ensures r.Some? ==> r.value.labels == selected && r.value.categories == allCategories
    ensures r.Some? ==> r.value.data == PlotData(t, selected, |allCategories|)
  {
    var data := PlotData(t, selected, |allCategories|);
    if |data| > 0 then Some(ComparisonChart(data, allCategories, selected)) else None
  }

  /**
   * With a selected name missing from the store ahead of one that is
   * present, the first plotted line is labelled with the missing name.
   */
  lemma LabelShift()
    ensures var t := WorkerTable.Insert(WorkerTable.Empty(), "B", [5]).table;
      var r := UpdateComparisonChartAsWritten(t, ["A", "B"], ["c"]);
      && r.Some? && r.value.labels[0] == "A"
      && Present(t, ["A", "B"]) == ["B"]
      && r.value.data[0] == Vectors.Fit(StoredLevels(t, "B"), 1)
  {
    var t := WorkerTable.Insert(WorkerTable.Empty(), "B", [5]).table;
    assert t.rows[0].name == "B";
    assert WorkerTable.HasName(t, "B");
    assert !WorkerTable.HasName(t, "A");
    assert ["A", "B"][1..] == ["B"];
    assert Present(t, ["B"]) == ["B"];
    PlotDataEntries(t, ["A", "B"], 1);
  }

  /**
   * `update_comparison_chart` with every legend label naming the worker whose
   * line it labels: the labels are the selected names the store holds.
   */
  function UpdateComparisonChart(t: Table, selected: seq<string>, allCategories: seq<string>): (r: Option<ComparisonChart>)
    requires WorkerTable.Valid(t)
    ensures r.None? <==> |Present(t, selected)| == 0
    ensures r.Some? ==> r.value.categories == allCategories && |r.value.labels| == |r.value.data|
    ensures r.Some? ==> r.value.labels == Present(t, selected)
    ensures r.Some? ==> forall k :: 0 <= k < |r.value.data| ==>
      && WorkerTable.HasName(t, r.value.labels[k])
      && |r.value.data[k]| == |allCategories|
      && r.value.data[k] == Vectors.Fit(StoredLevels(t, r.value.labels[k]), |allCategories|)
  {
    var data := PlotData(t, selected, |allCategories|);
    PlotDataEntries(t, selected, |allCategories|);
    if |data| > 0 then Some(ComparisonChart(data, allCategories, Present(t, selected))) else None
  }
}

=== FILE: decimal.dfy ===
/**
 * Python's conversions between `int` and decimal text: `str(x)` for writing
 * a level and `int(s)` for reading one back.
 */
module Decimal {
  import opened Wrappers
  import PyText

  predicate IsDigit(c: char) {
    '0' <= c <= '9'
  }

  predicate AllDigits(s: string) {
    forall i :: 0 <= i < |s| ==> IsDigit(s[i])
  }

  function DigitChar(d: nat): (c: char)
    requires d < 10
    ensures IsDigit(c) && c as int - '0' as int == d
  {
    (('0' as int) + d) as char
  }

  /** The value of a run of decimal digits, most significant first. */
  function DigitsValue(s: string): nat
    requires AllDigits(s)
  {
    if |s| == 0 then 0
    else DigitsValue(s[..|s| - 1]) * 10 + (s[|s| - 1] as int - '0' as int)
  }

  /** `str(n)` for a non-negative integer: the shortest decimal spelling. */
  function NatToString(n: nat): (s: string)
    ensures |s| >= 1 && AllDigits(s)
    ensures DigitsValue(s) == n
    ensures n > 0 ==> s[0] != '0'
  {
    if n < 10 then [DigitChar(n)]
    else
      var s := NatToString(n / 10) + [DigitChar(n % 10)];
      assert s[..|s| - 1] == NatToString(n / 10);
      s
  }

  /** `str(x)`: a minus sign for negative numbers, then the digits of the magnitude. */
  function IntToString(x: int): (s: string)
    ensures |s| >= 1
    ensures forall i :: 0 <= i < |s| ==> IsDigit(s[i]) || (i == 0 && s[i] == '-')
    ensures x < 0 <==> s[0] == '-'
  {
    if x < 0 then "-" + NatToString(-x) else NatToString(x)
  }

  /** The value of a signed decimal numeral: an optional `+` or `-`, then at least one digit. */
  function Numeral(t: string): (r: Option<int>)
    ensures r.Some? <==> (|t| >= 1 && AllDigits(t)) || (|t| >= 2 && (t[0] == '+' || t[0] == '-') && AllDigits(t[1..]))
  {
    if |t| >= 1 && AllDigits(t) then Some(DigitsValue(t))
    else if |t| >= 2 && t[0] == '-' && AllDigits(t[1..]) then var v: int := DigitsValue(t[1..]); Some(-v)
    else if |t| >= 2 && t[0] == '+' && AllDigits(t[1..]) then Some(DigitsValue(t[1..]))
    else None
  }

  /**
   * The white space `int` skips around a numeral: the `str.isspace`
   * characters except U+001C to U+001F. Below U+0080 `int` knows only space
   * and `\t` to `\r`; above, every `str.isspace` character counts.
   */
  predicate IntSpace(c: char) {
    PyText.IsSpace(c) && !('\U{001C}' <= c <= '\U{001F}')
  }

  /** The text with its trailing `int` white space cut off. */
  function TrimEnd(s: string): (r: string)
    ensures |r| <= |s| && r == s[..|r|]
    ensures |r| > 0 ==> !IntSpace(r[|r| - 1])
    ensures forall i :: |r| <= i < |s| ==> IntSpace(s[i])
  {
    if |s| > 0 && IntSpace(s[|s| - 1]) then TrimEnd(s[..|s| - 1]) else s
  }

  /**
   * Python's `int(s)` in base 10: surrounding white space is ignored; anything
   * else that is not a signed numeral raises `ValueError`, modelled as `None`.
   * Leading white space is skipped one character at a time, trailing white
   * space is cut in one go.
   */
  function ParseInt(s: string): (r: Option<int>)
    ensures (forall i :: 0 <= i < |s| ==> IntSpace(s[i])) ==> r == None
    decreases |s|
  {
    if |s| > 0 && IntSpace(s[0]) then ParseInt(s[1..]) else Numeral(TrimEnd(s))
  }

  /** `s[a..b]` is `s` with exactly its leading and trailing `int` white space cut away. */
  predicate IntTrimmed(s: string, a: int, b: int) {
    && 0 <= a <= b <= |s|
    && (forall i :: 0 <= i < a ==> IntSpace(s[i]))
    && (forall i :: b <= i < |s| ==> IntSpace(s[i]))
    && (a < b ==> !IntSpace(s[a]) && !IntSpace(s[b - 1]))
  }

  /** `int(s)` reads the numeral left once the white space around it is cut away. */
  lemma {:induction false} ParseIntTrims(s: string)
    ensures exists a, b :: IntTrimmed(s, a, b) && ParseInt(s) == Numeral(s[a..b])
    decreases |s|
  {
    if |s| > 0 && IntSpace(s[0]) {
      ParseIntTrims(s[1..]);
      var a, b :| IntTrimmed(s[1..], a, b) && ParseInt(s[1..]) == Numeral(s[1..][a..b]);
      TrimmedAfterSpace(s, a, b);
    } else {
      var t := TrimEnd(s);
      assert s[0..|t|] == t;
      assert IntTrimmed(s, 0, |t|);
    }
  }

  /** One more leading space moves the trimmed run one place on. */
  lemma TrimmedAfterSpace(s: string, a: int, b: int)
    requires |s| > 0 && IntSpace(s[0]) && IntTrimmed(s[1..], a, b)
    ensures IntTrimmed(s, a + 1, b + 1) && s[1..][a..b] == s[a + 1..b + 1]
  {
    assert forall i :: 1 <= i < |s| ==> s[i] == s[1..][i - 1];
  }

  /** `rstrip` and `int` cut the same tail from text without U+001C to U+001F. */
  lemma {:induction false} TrimEndIsTrimRight(s: string)
    requires forall i :: 0 <= i < |s| ==> !('\U{001C}' <= s[i] <= '\U{001F}')
    ensures TrimEnd(s) == PyText.TrimRight(s)
    decreases |s|
  {
    if |s| > 0 && PyText.IsSpace(s[|s| - 1]) {
      TrimEndIsTrimRight(s[..|s| - 1]);
    }
  }

  /** On text without U+001C to U+001F, `int(s)` reads the numeral `s.strip()` leaves. */
  lemma {:induction false} ParseIntStrips(s: string)
    requires forall i :: 0 <= i < |s| ==> !('\U{001C}' <= s[i] <= '\U{001F}')
    ensures ParseInt(s) == Numeral(PyText.Strip(s))
    decreases |s|
  {
    if |s| > 0 && PyText.IsSpace(s[0]) {
      ParseIntStrips(s[1..]);
      assert PyText.TrimLeft(s) == PyText.TrimLeft(s[1..]);
    } else {
      TrimEndIsTrimRight(s);
    }
  }

  /** U+001C is white space to `strip` but not to `int`. */
  lemma SeparatorNotSkipped()
    ensures PyText.Strip("\U{001C}5") == "5"
    ensures ParseInt("\U{001C}5") == None
  {
    SeparatorStripped();
    SeparatorKept();
  }

  /** `strip` removes a leading U+001C. */
  lemma SeparatorStripped()
    ensures PyText.Strip("\U{001C}5") == "5"
  {
    var s: string := "\U{001C}5";
    assert s[1..] == "5";
    assert PyText.TrimLeft("5") == "5";
    assert PyText.TrimLeft(s) == "5";
    assert PyText.TrimRight("5") == "5";
  }

  /** `int` keeps a leading U+001C, which is no part of a numeral. */
  lemma SeparatorKept()
    ensures ParseInt("\U{001C}5") == None
  {
    var s: string := "\U{001C}5";
    assert ParseInt(s) == Numeral(TrimEnd(s));
    assert TrimEnd(s) == s;
    assert !IsDigit(s[0]) && s[0] != '+' && s[0] != '-';
  }

  /** Reading back what `str` wrote gives the same integer. */
  lemma IntToStringRoundTrip(x: int)
    ensures ParseInt(IntToString(x)) == Some(x)
  {
    var s := IntToString(x);
    assert !IntSpace(s[0]) && !IntSpace(s[|s| - 1]);
    assert TrimEnd(s) == s;
    if x < 0 {
      assert s[1..] == NatToString(-x);
    }
  }

  /** `int` tolerates the spaces a JSON array puts after each comma. */
  lemma LeadingSpaceTolerated(x: int)
    ensures ParseInt(" " + IntToString(x)) == Some(x)
  {
    var s := IntToString(x);
    assert (" " + s)[1..] == s;
    IntToStringRoundTrip(x);
  }
}

=== FILE: editor.dfy ===
/**
 * The main window's editing logic with the widgets taken away: which worker is
 * selected, whether there are unsaved edits, and how saving, starting a new
 * worker, selecting, deleting and redrawing a tab act on the store. Dialog
 * replies and the values in the level boxes are inputs.
 */
module Editor {
  import opened Wrappers
  import PyText
  import WorkerTable
  import Taxonomy
  import Vectors

  type Table = WorkerTable.Table

  /** The buttons of the "save changes?" question. */
  datatype Reply = Yes | No | Cancel

  datatype EditorState = EditorState(
    selectedWorker: Option<string>,
    unsavedChanges: bool,
    skipSkillLevelChange: bool)

  /** The state the window starts in. */
  const Initial: EditorState := EditorState(None, false, false)

  /** `if self.selected_worker:` is false for `None` and for the empty name. */
  predicate IsSelected(st: EditorState) {
    st.selectedWorker.Some? && |st.selectedWorker.value| > 0
  }

  /** What `save_worker` reported to the user. */
  datatype SaveOutcome = EmptyName | DuplicateName | Updated(name: string) | Added(name: string)

  datatype Saved = Saved(state: EditorState, table: Table, outcome: SaveOutcome)

  predicate Rejected(o: SaveOutcome) {
    o == EmptyName || o == DuplicateName
  }

  /**
   * When `save_worker` refuses a stripped name: it is empty, or another worker
   * holds it (keeping the selected worker's own name is not a clash).
   */
  predicate Refused(st: EditorState, t: Table, name: string) {
    |name| == 0 || (WorkerTable.HasName(t, name) && !(IsSelected(st) && st.selectedWorker.value == name))
  }

  /**
   * `save_worker`: with a worker selected, rename and rewrite it unless the
   * stripped name is empty or belongs to another worker; without one, add a
   * worker unless the name is empty or taken. A rejection changes neither the
   * store nor the state.
   */
  function SaveWorker(st: EditorState, t: Table, nameInput: string, levels: seq<int>): (r: Saved)
    requires WorkerTable.Valid(t)
    ensures WorkerTable.Valid(r.table)
    ensures Rejected(r.outcome) ==> r.table == t && r.state == st
    ensures |PyText.Strip(nameInput)| == 0 ==> r.outcome == EmptyName
    ensures !IsSelected(st) && WorkerTable.HasName(t, PyText.Strip(nameInput)) ==> Rejected(r.outcome)
    ensures (IsSelected(st) && st.selectedWorker.value != PyText.Strip(nameInput)
             && WorkerTable.HasName(t, PyText.Strip(nameInput))) ==> Rejected(r.outcome)
    ensures (IsSelected(st) && st.selectedWorker.value == PyText.Strip(nameInput)
             && |PyText.Strip(nameInput)| > 0) ==> r.outcome == Updated(PyText.Strip(nameInput))
    ensures Rejected(r.outcome) <==> Refused(st, t, PyText.Strip(nameInput))
    ensures !Rejected(r.outcome) ==>
      r.outcome == if IsSelected(st) then Updated(PyText.Strip(nameInput)) else Added(PyText.Strip(nameInput))
    ensures r.outcome.Updated? ==>
      && IsSelected(st)
      && r.outcome.name == PyText.Strip(nameInput)
      && var w := WorkerTable.Update(t, st.selectedWorker.value, r.outcome.name, levels);
      && w.error.None?
      && r.table == w.table
      && r.state == st.(selectedWorker := Some(r.outcome.name), unsavedChanges := false)
    ensures r.outcome.Added? ==>
      && !IsSelected(st)
      && r.outcome.name == PyText.Strip(nameInput)
      && var w := WorkerTable.Insert(t, r.outcome.name, levels);
      && w.error.None?
      && r.table == w.table
      && r.state == st.(selectedWorker := None, unsavedChanges := false)
  {
    var name := PyText.Strip(nameInput);
    if IsSelected(st) then SaveSelected(st, t, name, levels) else SaveNew(st, t, name, levels)
  }

  /** The update branch of `save_worker`, for the stripped name. */
  function SaveSelected(st: EditorState, t: Table, name: string, levels: seq<int>): (r: Saved)
    requires WorkerTable.Valid(t) && IsSelected(st)
    ensures WorkerTable.Valid(r.table)
    ensures Rejected(r.outcome) ==> r.table == t && r.state == st
    ensures |name| == 0 ==> r.outcome == EmptyName
    ensures st.selectedWorker.value != name && WorkerTable.HasName(t, name) ==> Rejected(r.outcome)
    ensures st.selectedWorker.value == name && |name| > 0 ==> r.outcome == Updated(name)
    ensures Rejected(r.outcome) <==> Refused(st, t, name)
    ensures !Rejected(r.outcome) ==> r.outcome == Updated(name)
    ensures r.outcome.Updated? ==>
      && r.outcome.name == name
      && var w := WorkerTable.Update(t, st.selectedWorker.value, name, levels);
      && w.error.None?
      && r.table == w.table
      && r.state == st.(selectedWorker := Some(name), unsavedChanges := false)
  {
    var oldName := st.selectedWorker.value;
    if |name| == 0 then Saved(st, t, EmptyName)
    else if oldName != name && WorkerTable.Find(t.rows, name).Some? then Saved(st, t, DuplicateName)
    else
      var w := WorkerTable.Update(t, oldName, name, levels);
      Saved(st.(selectedWorker := Some(name), unsavedChanges := false), w.table, Updated(name))
  }

  /** The add branch of `save_worker`, for the stripped name. */
  function SaveNew(st: EditorState, t: Table, name: string, levels: seq<int>): (r: Saved)
    requires WorkerTable.Valid(t)
    ensures WorkerTable.Valid(r.table)
    ensures Rejected(r.outcome) ==> r.table == t && r.state == st
    ensures |name| == 0 ==> r.outcome == EmptyName
    ensures WorkerTable.HasName(t, name) ==> Rejected(r.outcome)
    ensures Rejected(r.outcome) <==> |name| == 0 || WorkerTable.HasName(t, name)
    ensures !Rejected(r.outcome) ==> r.outcome == Added(name)
    ensures r.outcome.Added? ==>
      && r.outcome.name == name
      && var w := WorkerTable.Insert(t, name, levels);
      && w.error.None?
      && r.table == w.table
      && r.state == st.(selectedWorker := None, unsavedChanges := false)
  {
    if |name| == 0 then Saved(st, t, EmptyName)
    else if WorkerTable.Find(t.rows, name).Some? then Saved(st, t, DuplicateName)
    else
      var w := WorkerTable.Insert(t, name, levels);
      Saved(st.(selectedWorker := None, unsavedChanges := false), w.table, Added(name))
  }

  /** A save that goes through leaves the typed levels under the typed name. */
  lemma SaveThenGet(st: EditorState, t: Table, nameInput: string, levels: seq<int>)
    requires WorkerTable.Valid(t)
    requires var r := SaveWorker(st, t, nameInput, levels);
      r.outcome.Added? || (r.outcome.Updated? && WorkerTable.HasName(t, st.selectedWorker.value))
    ensures var r := SaveWorker(st, t, nameInput, levels);
      var g := WorkerTable.GetByName(r.table, PyText.Strip(nameInput));
      g.Ok? && g.value.Some? && g.value.value.skillLevels == levels
  {
    var r := SaveWorker(st, t, nameInput, levels);
    if r.outcome.Added? {
      WorkerTable.InsertThenGet(t, PyText.Strip(nameInput), levels);
    } else {
      WorkerTable.UpdateThenGet(t, st.selectedWorker.value, PyText.Strip(nameInput), levels);
    }
  }

  /**
   * Deleting the selected worker leaves it selected, so saving under the same
   * name takes the update branch: `UPDATE ... WHERE name=?` matches no row,
   * the save is reported as an update, and nothing is stored.
   */
  lemma DeleteThenSaveLost(st: EditorState, t: Table, levels: seq<int>)
    requires WorkerTable.Valid(t) && IsSelected(st)
    requires PyText.Strip(st.selectedWorker.value) == st.selectedWorker.value
    ensures var name := st.selectedWorker.value;
      var d := DeleteWorker(st, t, Some(name), Yes);
      var r := SaveWorker(d.state, d.table, name, levels);
      && r.outcome == Updated(name)
      && r.table == d.table
      && WorkerTable.GetByName(r.table, name) == Ok(None)
  {
    var name := st.selectedWorker.value;
    var d := DeleteWorker(st, t, Some(name), Yes);
    assert !WorkerTable.HasName(d.table, name);
    assert WorkerTable.Update(d.table, name, name, levels) == WorkerTable.Write(d.table, None);
  }

  /**
   * `save_worker` with a selection the store no longer holds treated as no
   * selection: every save that is not rejected leaves the typed levels under
   * the typed name.
   */
  function SaveWorkerFixed(st: EditorState, t: Table, nameInput: string, levels: seq<int>): (r: Saved)
    requires WorkerTable.Valid(t)
    ensures WorkerTable.Valid(r.table)
    ensures Rejected(r.outcome) ==> r.table == t
    ensures Rejected(r.outcome) <==> Refused(st, t, PyText.Strip(nameInput))
    ensures !Rejected(r.outcome) ==>
      r.outcome == if IsSelected(st) && WorkerTable.HasName(t, st.selectedWorker.value)
        then Updated(PyText.Strip(nameInput)) else Added(PyText.Strip(nameInput))
    ensures !Rejected(r.outcome) ==>
      var g := WorkerTable.GetByName(r.table, PyText.Strip(nameInput));
      g.Ok? && g.value.Some? && g.value.value.skillLevels == levels
  {
    var current := if IsSelected(st) && !WorkerTable.HasName(t, st.selectedWorker.value)
      then st.(selectedWorker := None) else st;
    var r := SaveWorker(current, t, nameInput, levels);
    if Rejected(r.outcome) then r
    else
      SaveThenGet(current, t, nameInput, levels);
      r
  }

  /** The corrected save stores the worker the stale selection lost. */
  lemma DeleteThenSaveFixed(st: EditorState, t: Table, levels: seq<int>)
    requires WorkerTable.Valid(t) && IsSelected(st)
    requires PyText.Strip(st.selectedWorker.value) == st.selectedWorker.value
    ensures var name := st.selectedWorker.value;
      var d := DeleteWorker(st, t, Some(name), Yes);
      var r := SaveWorkerFixed(d.state, d.table, name, levels);
      && r.outcome == Added(name)
      && WorkerTable.GetByName(r.table, name).Ok?
      && WorkerTable.GetByName(r.table, name).value.Some?
      && WorkerTable.GetByName(r.table, name).value.value.skillLevels == levels
  {
    var name := st.selectedWorker.value;
    var d := DeleteWorker(st, t, Some(name), Yes);
    assert !WorkerTable.HasName(d.table, name);
    assert WorkerTable.Find(d.table.rows, name).None?;
  }

  /** `on_skill_level_changed`: ignored while the skip flag is set, otherwise marks the edits unsaved. */
  function OnSkillLevelChanged(st: EditorState): (r: EditorState)
    ensures st.skipSkillLevelChange ==> r == st
    ensures !st.skipSkillLevelChange ==> r.unsavedChanges && r.selectedWorker == st.selectedWorker
    ensures r.skipSkillLevelChange == st.skipSkillLevelChange
  {
    if st.skipSkillLevelChange then st else st.(unsavedChanges := true)
  }

  /**
   * The chart data `on_skill_level_changed` draws for the current tab: the
   * tab's level boxes, cut or padded with 1 to the tab's category count.
   */
  function LiveTabChart(gs: seq<Taxonomy.Group>, flattened: seq<string>, tabIndex: int, boxes: seq<int>): (r: seq<int>)
    ensures Taxonomy.WellFormed(gs) && |flattened| > 0 && 0 <= tabIndex < |gs| ==>
      |r| == |gs[tabIndex].categories|
    ensures forall j :: 0 <= j < |r| ==> r[j] == if j < |boxes| then boxes[j] else 1
    ensures tabIndex >= |gs| ==> r == []
  {
    Vectors.Fit(boxes, |Taxonomy.CategoriesForTab(gs, flattened, tabIndex)|)
  }

  datatype Step = Step(state: EditorState, table: Table)

  /**
   * The question `new_worker` and `on_worker_selected` ask when there are
   * unsaved edits. `None` means the user cancelled and nothing happens;
   * otherwise the table after the optional save.
   */
  function AskToSave(st: EditorState, reply: Reply, t: Table, nameInput: string, levels: seq<int>): (r: Option<Table>)
    requires WorkerTable.Valid(t)
    ensures r.Some? ==> WorkerTable.Valid(r.value)
    ensures r.None? <==> st.unsavedChanges && reply == Cancel
    ensures r.Some? && (!st.unsavedChanges || reply == No) ==> r.value == t
    ensures st.unsavedChanges && reply == Yes ==> r == Some(SaveWorker(st, t, nameInput, levels).table)
  {
    if !st.unsavedChanges then Some(t)
    else match reply {
      case Yes => Some(SaveWorker(st, t, nameInput, levels).table)
      case Cancel => None
      case No => Some(t)
    }
  }

  /**
   * `new_worker`: after the save question (if any), leave the selection and
   * the unsaved flag cleared, whatever the save did.
   */
  function NewWorker(st: EditorState, reply: Reply, t: Table, nameInput: string, levels: seq<int>): (r: Step)
    requires WorkerTable.Valid(t)
    ensures WorkerTable.Valid(r.table)
    ensures st.unsavedChanges && reply == Cancel ==> r == Step(st, t)
    ensures !(st.unsavedChanges && reply == Cancel) ==>
      r.state == st.(selectedWorker := None, unsavedChanges := false)
    ensures !st.unsavedChanges ==> r.table == t
  {
    match AskToSave(st, reply, t, nameInput, levels) {
      case None => Step(st, t)
      case Some(t') => Step(st.(selectedWorker := None, unsavedChanges := false), t')
    }
  }

  /**
   * A "yes, save" answer whose save is rejected still discards the edits:
   * the new-worker form opens with the store unchanged and the flag cleared.
   */
  lemma NewWorkerAfterRejectedSave(st: EditorState, t: Table, nameInput: string, levels: seq<int>)
    requires WorkerTable.Valid(t) && st.unsavedChanges
    requires Rejected(SaveWorker(st, t, nameInput, levels).outcome)
    ensures NewWorker(st, Yes, t, nameInput, levels).table == t
    ensures !NewWorker(st, Yes, t, nameInput, levels).state.unsavedChanges
  {
  }

  /** `on_worker_selected`: after the save question (if any), select the clicked worker. */
  function OnWorkerSelected(st: EditorState, reply: Reply, t: Table, nameInput: string, levels: seq<int>, clicked: string): (r: Step)
    requires WorkerTable.Valid(t)
    ensures WorkerTable.Valid(r.table)
    ensures st.unsavedChanges && reply == Cancel ==> r == Step(st, t)
    ensures !(st.unsavedChanges && reply == Cancel) ==>
      r.state == st.(selectedWorker := Some(clicked), unsavedChanges := false)
  {
    match AskToSave(st, reply, t, nameInput, levels) {
      case None => Step(st, t)
      case Some(t') => Step(st.(selectedWorker := Some(clicked), unsavedChanges := false), t')
    }
  }

  /**
   * `delete_worker`: with a worker highlighted in the list and a "yes", delete
   * it and clear the unsaved flag. The selection is left as it was.
   */
  function DeleteWorker(st: EditorState, t: Table, highlighted: Option<string>, reply: Reply): (r: Step)
    requires WorkerTable.Valid(t)
    ensures WorkerTable.Valid(r.table)
    ensures r.state.selectedWorker == st.selectedWorker
    ensures highlighted.None? || reply != Yes ==> r == Step(st, t)
    ensures highlighted.Some? && reply == Yes ==>
      && !WorkerTable.HasName(r.table, highlighted.value)
      && r.table == WorkerTable.Delete(t, highlighted.value)
      && !r.state.unsavedChanges
  {
    if highlighted.None? || reply != Yes then Step(st, t)
    else Step(st.(unsavedChanges := false), WorkerTable.Delete(t, highlighted.value))
  }

  /**
   * `update_chart_for_tab`: the data a tab's chart is redrawn with, or `None`
   * when the selected worker is not in the store and the chart is left alone.
   * Without a selection the chart shows level 1 everywhere.
   */
  function TabChart(gs: seq<Taxonomy.Group>, flattened: seq<string>, tabIndex: int, st: EditorState, t: Table): (r: Option<seq<int>>)
    requires WorkerTable.Valid(t)
    ensures !IsSelected(st) ==>
      r == Some(Vectors.Ones(|Taxonomy.CategoriesForTab(gs, flattened, tabIndex)|))
    ensures IsSelected(st) && !WorkerTable.HasName(t, st.selectedWorker.value) ==> r == None
    ensures IsSelected(st) && WorkerTable.HasName(t, st.selectedWorker.value) ==>
      var g := WorkerTable.GetByName(t, st.selectedWorker.value);
      g.Ok? && g.value.Some? &&
      r == Some(Taxonomy.TabSlice(gs, flattened, g.value.value.skillLevels, tabIndex))
  {
    var categories := Taxonomy.CategoriesForTab(gs, flattened, tabIndex);
    if !IsSelected(st) then Some(Vectors.Ones(|categories|))
    else match WorkerTable.GetByName(t, st.selectedWorker.value) {
      case Ok(Some(w)) => Some(Taxonomy.TabSlice(gs, flattened, w.skillLevels, tabIndex))
      case _ => None
    }
  }

  /**
   * Adding a worker and then selecting it charts, on every tab, the tab's
   * slice of exactly the vector that was saved (see `Taxonomy.TabSliceEntries`
   * for what that slice holds).
   */
  lemma AddThenSelect(t: Table, nameInput: string, levels: seq<int>, gs: seq<Taxonomy.Group>, tabIndex: int)
    requires WorkerTable.Valid(t)
    requires SaveWorker(Initial, t, nameInput, levels).outcome.Added?
    ensures var t' := SaveWorker(Initial, t, nameInput, levels).table;
      var st := OnWorkerSelected(Initial, No, t', "", [], PyText.Strip(nameInput)).state;
      TabChart(gs, Taxonomy.Flatten(gs), tabIndex, st, t') == Some(Taxonomy.TabSlice(gs, Taxonomy.Flatten(gs), levels, tabIndex))
  {
    var name := PyText.Strip(nameInput);
    SaveThenGet(Initial, t, nameInput, levels);
    var t' := SaveWorker(Initial, t, nameInput, levels).table;
    assert WorkerTable.HasName(t', name) by {
      assert t'.rows[|t.rows|].name == name;
    }
    var st := OnWorkerSelected(Initial, No, t', "", [], name).state;
    assert st == EditorState(Some(name), false, false);
  }
}

=== FILE: excel_export.dfy ===
/**
 * The spreadsheet export: a single sheet with a header of the name column and
 * every category any worker has, first-seen order, no repeats; then one row
 * per worker with its level under each of its categories and an empty cell
 * elsewhere; then a fill colour for every integer cell below the header.
 */
module ExcelExport {
  import opened Wrappers
  import WorkerRecords

  type WorkerData = WorkerRecords.WorkerData

  /** A cell value: text, an integer level, or the empty string of a missing category. */
  datatype Cell = Text(text: string) | Level(level: int) | Blank

  datatype Color = Green | Yellow | Orange | Pink | White

  datatype Sheet = Sheet(title: string, rows: seq<seq<Cell>>)

  /** The Python exception a worker with too few levels raises. */
  datatype ExportError = IndexError

  const SheetTitle: string := "Skill Matrix"
  const NameHeader: string := "名前"

  predicate IsHexDigit(ch: char) {
    '0' <= ch <= '9' || 'A' <= ch <= 'F'
  }

  /** The `start_color` of each fill: an RGB code of six hexadecimal digits. */
  function Hex(c: Color): (r: string)
    ensures |r| == 6 && forall k :: 0 <= k < 6 ==> IsHexDigit(r[k])
    ensures c == White <==> r == "FFFFFF"
  {
    match c
    case Green => "00FF00"
    case Yellow => "FFFF00"
    case Orange => "FFA500"
    case Pink => "FFC0CB"
    case White => "FFFFFF"
  }

  /** Python's `xs.index(x)`: the first position holding `x`. */
  function FirstIndex(xs: seq<string>, x: string): (i: nat)
    requires x in xs
    ensures i < |xs| && xs[i] == x
    ensures forall j :: 0 <= j < i ==> xs[j] != x
  {
    if xs[0] == x then 0 else 1 + FirstIndex(xs[1..], x)
  }

  predicate NoDuplicates(xs: seq<string>) {
    forall i, j :: 0 <= i < j < |xs| ==> xs[i] != xs[j]
  }

  /**
   * The categories of every worker, in order, with later repeats dropped: the
   * result holds each category once and nothing else.
   */
  function Distinct(xs: seq<string>): (r: seq<string>)
    ensures NoDuplicates(r)
    ensures forall x :: x in r <==> x in xs
  {
    if |xs| == 0 then []
    else
      var d := Distinct(xs[..|xs| - 1]);
      if xs[|xs| - 1] in d then d else d + [xs[|xs| - 1]]
  }

  /** The categories come out in the order of their first appearance. */
  lemma {:induction false} DistinctFirstSeen(xs: seq<string>)
    ensures forall i, j :: 0 <= i < j < |Distinct(xs)| ==>
      FirstIndex(xs, Distinct(xs)[i]) < FirstIndex(xs, Distinct(xs)[j])
  {
    if |xs| > 0 {
      var init := xs[..|xs| - 1];
      var last := xs[|xs| - 1];
      var d := Distinct(init);
      DistinctFirstSeen(init);
      forall x | x in init
        ensures FirstIndex(xs, x) == FirstIndex(init, x)
      {
        FirstIndexPrefix(xs, init, x);
      }
      if last !in d {
        assert FirstIndex(xs, last) == |xs| - 1;
      }
    }
  }

  lemma {:induction false} FirstIndexPrefix(xs: seq<string>, init: seq<string>, x: string)
    requires init <= xs && x in init
    ensures FirstIndex(xs, x) == FirstIndex(init, x)
  {
    if xs[0] != x {
      assert init[1..] <= xs[1..];
      FirstIndexPrefix(xs[1..], init[1..], x);
    }
  }

  /** Every category of every worker, worker by worker. */
  function AllListed(entries: seq<(string, WorkerData)>): seq<string> {
    if |entries| == 0 then [] else AllListed(entries[..|entries| - 1]) + entries[|entries| - 1].1.categories
  }

  lemma {:induction false} AllListedMembers(entries: seq<(string, WorkerData)>, c: string)
    ensures c in AllListed(entries) <==> exists k :: 0 <= k < |entries| && c in entries[k].1.categories
  {
    if |entries| > 0 {
      var init := entries[..|entries| - 1];
      AllListedMembers(init, c);
      assert forall k :: 0 <= k < |init| ==> init[k] == entries[k];
    }
  }

  /** `all_categories` */
  function AllCategories(entries: seq<(string, WorkerData)>): seq<string> {
    Distinct(AllListed(entries))
  }

  /**
   * A category's cell in one worker's row: blank for a category the worker
   * does not list, otherwise the level at the category's first position, and
   * `IndexError` when the levels stop short of that position.
   */
  function CellFor(w: WorkerData, c: string): (r: Result<Cell, ExportError>)
    ensures c !in w.categories ==> r == Ok(Blank)
    ensures r.Err? <==> c in w.categories && |w.skillLevels| <= FirstIndex(w.categories, c)
    ensures r.Ok? && c in w.categories ==> r.value == Level(w.skillLevels[FirstIndex(w.categories, c)])
  {
    if c in w.categories then
      var i := FirstIndex(w.categories, c);
      if i < |w.skillLevels| then Ok(Level(w.skillLevels[i])) else Err(IndexError)
    else Ok(Blank)
  }

  /** The value written for category `c` in a worker's row, when the row can be written. */
  function CellValue(w: WorkerData, c: string): Cell
    requires c in w.categories ==> FirstIndex(w.categories, c) < |w.skillLevels|
  {
    if c in w.categories then Level(w.skillLevels[FirstIndex(w.categories, c)]) else Blank
  }

  lemma CellsValue(w: WorkerData, cats: seq<string>, j: nat)
    requires Cells(w, cats).Ok? && j < |cats|
    ensures cats[j] in w.categories ==> FirstIndex(w.categories, cats[j]) < |w.skillLevels|
    ensures Cells(w, cats).value[j] == CellValue(w, cats[j])
  {
    assert CellFor(w, cats[j]).Ok?;
  }

  /** The cells after the name, one per category in `cats`; the first short worker raises. */
  function Cells(w: WorkerData, cats: seq<string>): (r: Result<seq<Cell>, ExportError>)
    ensures r.Ok? <==> forall j :: 0 <= j < |cats| ==> CellFor(w, cats[j]).Ok?
    ensures r.Ok? ==> |r.value| == |cats| && forall j :: 0 <= j < |cats| ==> CellFor(w, cats[j]) == Ok(r.value[j])
  {
    if |cats| == 0 then Ok([])
    else match CellFor(w, cats[0]) {
      case Err(e) => Err(e)
      case Ok(c) =>
        match Cells(w, cats[1..]) {
          case Err(e) =>
            assert forall j :: 1 <= j < |cats| ==> cats[j] == cats[1..][j - 1];
            Err(e)
          case Ok(cs) =>
            assert forall j :: 1 <= j < |cats| ==> cats[j] == cats[1..][j - 1];
            Ok([c] + cs)
        }
    }
  }

  /** The data rows, in the order of the entries. */
  function DataRows(entries: seq<(string, WorkerData)>, cats: seq<string>): (r: Result<seq<seq<Cell>>, ExportError>)
    ensures r.Ok? <==> forall k :: 0 <= k < |entries| ==> Cells(entries[k].1, cats).Ok?
    ensures r.Ok? ==> |r.value| == |entries| && forall k :: 0 <= k < |entries| ==>
      r.value[k] == [Text(entries[k].0)] + Cells(entries[k].1, cats).value
  {
    if |entries| == 0 then Ok([])
    else match Cells(entries[0].1, cats) {
      case Err(e) => Err(e)
      case Ok(cs) =>
        match DataRows(entries[1..], cats) {
          case Err(e) =>
            assert forall k :: 1 <= k < |entries| ==> entries[k] == entries[1..][k - 1];
            Err(e)
          case Ok(rows) =>
            assert forall k :: 1 <= k < |entries| ==> entries[k] == entries[1..][k - 1];
            Ok([[Text(entries[0].0)] + cs] + rows)
        }
    }
  }

  /** A worker's categories all have a level: `skill_levels[index]` never runs off the end. */
  predicate Covered(w: WorkerData) {
    forall c :: c in w.categories ==> FirstIndex(w.categories, c) < |w.skillLevels|
  }

  lemma CellsOk(w: WorkerData, cats: seq<string>)
    ensures Covered(w) ==> Cells(w, cats).Ok?
    ensures (forall c :: c in w.categories ==> c in cats) && Cells(w, cats).Ok? ==> Covered(w)
  {
    if (forall c :: c in w.categories ==> c in cats) && Cells(w, cats).Ok? {
      forall c | c in w.categories
        ensures FirstIndex(w.categories, c) < |w.skillLevels|
      {
        var j :| 0 <= j < |cats| && cats[j] == c;
        assert CellFor(w, cats[j]).Ok?;
      }
    }
  }

  /** The header row: `名前`, then one text cell per category. */
  function Header(cats: seq<string>): (r: seq<Cell>)
    ensures |r| == |cats| + 1 && r[0] == Text(NameHeader)
    ensures forall j :: 0 <= j < |cats| ==> r[j + 1] == Text(cats[j])
  {
    [Text(NameHeader)] + seq(|cats|, j requires 0 <= j < |cats| => Text(cats[j]))
  }

  /**
   * The workbook of `export_to_excel` (before it is saved): one sheet titled
   * "Skill Matrix", the header row, then a row per worker. It fails exactly
   * when some worker lists a category beyond the end of its levels.
   */
  function ExportToExcel(entries: seq<(string, WorkerData)>): (r: Result<Sheet, ExportError>)
    ensures r.Ok? <==> forall k :: 0 <= k < |entries| ==> Covered(entries[k].1)
    ensures r.Ok? ==> r.value.title == SheetTitle && |r.value.rows| == |entries| + 1
    ensures r.Ok? ==> r.value.rows[0] == Header(AllCategories(entries))
    ensures r.Ok? ==> forall k :: 0 <= k < |entries| ==>
      && |r.value.rows[k + 1]| == |r.value.rows[0]|
      && r.value.rows[k + 1][0] == Text(entries[k].0)
      && forall j :: 0 <= j < |AllCategories(entries)| ==>
        && (AllCategories(entries)[j] in entries[k].1.categories ==>
              FirstIndex(entries[k].1.categories, AllCategories(entries)[j]) < |entries[k].1.skillLevels|)
        && r.value.rows[k + 1][j + 1] == CellValue(entries[k].1, AllCategories(entries)[j])
  {
    var cats := AllCategories(entries);
    DataRowsCovered(entries);
    var header := Header(cats);
    match DataRows(entries, cats) {
      case Err(e) => Err(e)
      case Ok(rows) =>
        DataRowsValues(entries, cats, rows);
        var sheet := [header] + rows;
        assert forall k :: 0 <= k < |rows| ==> sheet[k + 1] == rows[k];
        Ok(Sheet(SheetTitle, sheet))
    }
  }

  /** The rows are produced exactly when every worker is covered. */
  lemma DataRowsCovered(entries: seq<(string, WorkerData)>)
    ensures DataRows(entries, AllCategories(entries)).Ok? <==>
      forall k :: 0 <= k < |entries| ==> Covered(entries[k].1)
  {
    var cats := AllCategories(entries);
    forall k | 0 <= k < |entries|
      ensures Cells(entries[k].1, cats).Ok? <==> Covered(entries[k].1)
    {
      forall c | c in entries[k].1.categories
        ensures c in cats
      {
        AllListedMembers(entries, c);
      }
      CellsOk(entries[k].1, cats);
    }
  }

  /** Cell `j + 1` of data row `k` is worker `k`'s value for category `j`. */
  lemma DataRowsValues(entries: seq<(string, WorkerData)>, cats: seq<string>, rows: seq<seq<Cell>>)
    requires DataRows(entries, cats) == Ok(rows)
    ensures |rows| == |entries|
    ensures forall k :: 0 <= k < |entries| ==> |rows[k]| == |cats| + 1 && rows[k][0] == Text(entries[k].0)
    ensures forall k, j :: 0 <= k < |entries| && 0 <= j < |cats| ==>
      && (cats[j] in entries[k].1.categories ==>
            FirstIndex(entries[k].1.categories, cats[j]) < |entries[k].1.skillLevels|)
      && rows[k][j + 1] == CellValue(entries[k].1, cats[j])
  {
    forall k, j | 0 <= k < |entries| && 0 <= j < |cats|
      ensures cats[j] in entries[k].1.categories ==>
        FirstIndex(entries[k].1.categories, cats[j]) < |entries[k].1.skillLevels|
      ensures rows[k][j + 1] == CellValue(entries[k].1, cats[j])
    {
      DataRowCell(entries[k].1, entries[k].0, cats, rows[k], j);
    }
  }

  lemma DataRowCell(w: WorkerData, name: string, cats: seq<string>, row: seq<Cell>, j: nat)
    requires Cells(w, cats).Ok? && row == [Text(name)] + Cells(w, cats).value
    requires j < |cats|
    ensures cats[j] in w.categories ==> FirstIndex(w.categories, cats[j]) < |w.skillLevels|
    ensures j + 1 < |row| && row[j + 1] == CellValue(w, cats[j])
  {
    CellsValue(w, cats, j);
  }

  /** The fill a cell below the header receives: only integer cells get one. */
  function Fill(c: Cell): (r: Option<Color>)
    ensures r.Some? <==> c.Level?
    ensures c == Level(5) ==> r == Some(Green)
    ensures c == Level(4) ==> r == Some(Yellow)
    ensures c == Level(3) ==> r == Some(Orange)
    ensures c == Level(2) ==> r == Some(Pink)
    ensures r == Some(White) <==> c.Level? && !(2 <= c.level <= 5)
  {
    match c
    case Level(v) =>
      if v == 5 then Some(Green)
      else if v == 4 then Some(Yellow)
      else if v == 3 then Some(Orange)
      else if v == 2 then Some(Pink)
      else Some(White)
    case _ => None
  }

  /** The fills of every row after the header, cell by cell. */
  function Fills(s: Sheet): (r: seq<seq<Option<Color>>>)
    requires |s.rows| >= 1
    ensures |r| == |s.rows| - 1
    ensures forall k :: 0 <= k < |r| ==>
      |r[k]| == |s.rows[k + 1]| && forall j :: 0 <= j < |r[k]| ==> r[k][j] == Fill(s.rows[k + 1][j])
  {
    seq(|s.rows| - 1, k requires 0 <= k < |s.rows| - 1 =>
      seq(|s.rows[k + 1]|, j requires 0 <= j < |s.rows[k + 1]| => Fill(s.rows[k + 1][j])))
  }

  /** Levels 2 to 5 each get their own colour; distinct levels in that range never share one. */
  lemma FillDistinguishesLevels(a: int, b: int)
    requires 2 <= a <= 5 && 2 <= b <= 5 && a != b
    ensures Fill(Level(a)) != Fill(Level(b))
  {
  }

  /** Levels 2 to 5 are painted with pairwise different RGB codes. */
  lemma FillCodesDistinct(a: int, b: int)
    requires 2 <= a <= 5 && 2 <= b <= 5 && a != b
    ensures Hex(Fill(Level(a)).value) != Hex(Fill(Level(b)).value)
  {
    FillDistinguishesLevels(a, b);
    HexInjective(Fill(Level(a)).value, Fill(Level(b)).value);
  }

  /** Different colours have different codes. */
  lemma HexInjective(x: Color, y: Color)
    requires x != y
    ensures Hex(x) != Hex(y)
  {
    match x
    case Green => assert Hex(x)[0] == '0';
    case Yellow => assert Hex(x)[2] == 'F' && Hex(x)[4] == '0';
    case Orange => assert Hex(x)[2] == 'A';
    case Pink => assert Hex(x)[2] == 'C';
    case White => assert Hex(x)[4] == 'F';
  }

  /** The name column never gets a fill. */
  lemma NameCellsUnfilled(entries: seq<(string, WorkerData)>)
    requires ExportToExcel(entries).Ok?
    ensures forall k :: 0 <= k < |entries| ==> Fills(ExportToExcel(entries).value)[k][0] == None
  {
  }
}

=== FILE: levels_codec.dfy ===
/**
 * The text form of a skill vector in the `skill_levels` column of the
 * `workers` table: levels written with `str` and joined by commas, read back
 * by dropping any square brackets, splitting on commas and parsing each piece
 * with `int`. An empty column reads as the empty vector.
 */
module LevelsCodec {
  import opened Wrappers
  import PyText
  import Decimal

  /** The exceptions the store's operations can raise. */
  datatype DbError =
    | IntegrityError  // a UNIQUE constraint on `name` was violated
    | ValueError      // a stored piece of text is not an integer

  /** `str` applied to every level. */
  function Texts(xs: seq<int>): (ps: seq<string>)
    ensures |ps| == |xs|
    ensures forall k :: 0 <= k < |ps| ==> ps[k] == Decimal.IntToString(xs[k])
  {
    if |xs| == 0 then [] else [Decimal.IntToString(xs[0])] + Texts(xs[1..])
  }

  /** `','.join(map(str, skill_levels))`: splitting at the commas gives back each level's text. */
  function Encode(xs: seq<int>): (r: string)
    ensures |xs| > 0 ==> PyText.Split(r, ',') == Texts(xs)
  {
    var r := PyText.Join(Texts(xs), ',');
    TextsPlain(xs);
    if |xs| > 0 then PyText.SplitJoin(Texts(xs), ','); r else r
  }

  /** `int` applied to every piece; the first piece that is not an integer raises. */
  function ParseAll(ps: seq<string>): (r: Result<seq<int>, DbError>)
    ensures r.Ok? ==> |r.value| == |ps|
    ensures r.Err? ==> r.error == ValueError
    ensures r.Ok? <==> forall k :: 0 <= k < |ps| ==> Decimal.ParseInt(ps[k]).Some?
    ensures r.Ok? ==> forall k :: 0 <= k < |ps| ==> Decimal.ParseInt(ps[k]) == Some(r.value[k])
  {
    if |ps| == 0 then Ok([])
    else match Decimal.ParseInt(ps[0]) {
      case None => Err(ValueError)
      case Some(x) =>
        match ParseAll(ps[1..]) {
          case Err(e) => Err(e)
          case Ok(rest) =>
            assert forall k :: 1 <= k < |ps| ==> ps[k] == ps[1..][k - 1];
            Ok([x] + rest)
        }
    }
  }

  /**
   * Reading a `skill_levels` column back into a vector. Only `int` can fail,
   * and only empty text reads as the empty vector.
   */
  function Decode(text: string): (r: Result<seq<int>, DbError>)
    ensures r.Err? ==> r.error == ValueError
    ensures r.Ok? ==> (|r.value| == 0 <==> |text| == 0)
  {
    if |text| == 0 then Ok([])
    else ParseAll(PyText.Split(PyText.RemoveChar(PyText.RemoveChar(text, '['), ']'), ','))
  }

  lemma {:induction false} ParseTexts(xs: seq<int>)
    ensures ParseAll(Texts(xs)) == Ok(xs)
  {
    if |xs| > 0 {
      Decimal.IntToStringRoundTrip(xs[0]);
      ParseTexts(xs[1..]);
      assert Texts(xs)[1..] == Texts(xs[1..]);
      assert [xs[0]] + xs[1..] == xs;
    }
  }

  /** No piece written by `str` holds a comma or a bracket. */
  lemma TextsPlain(xs: seq<int>)
    ensures forall k :: 0 <= k < |xs| ==> ',' !in Texts(xs)[k] && '[' !in Texts(xs)[k] && ']' !in Texts(xs)[k]
  {
  }

  lemma {:induction false} JoinPlain(ps: seq<string>, c: char, d: char)
    requires forall k :: 0 <= k < |ps| ==> d !in ps[k]
    requires c != d
    ensures d !in PyText.Join(ps, c)
  {
    if |ps| > 1 {
      JoinPlain(ps[1..], c, d);
    }
  }

  lemma EncodeEmpty(xs: seq<int>)
    ensures |Encode(xs)| == 0 <==> |xs| == 0
  {
    if |xs| > 0 {
      assert |Texts(xs)[0]| >= 1;
      if |xs| > 1 {
        assert Encode(xs) == Texts(xs)[0] + [','] + PyText.Join(Texts(xs)[1..], ',');
      }
    }
  }

  lemma EncodeNoBrackets(xs: seq<int>)
    ensures '[' !in Encode(xs) && ']' !in Encode(xs)
  {
    TextsPlain(xs);
    JoinPlain(Texts(xs), ',', '[');
    JoinPlain(Texts(xs), ',', ']');
  }

  /** Dropping the brackets from bracket-free text wrapped in one pair gives the text back. */
  lemma UnwrapBrackets(j: string)
    requires '[' !in j && ']' !in j
    ensures PyText.RemoveChar(PyText.RemoveChar("[" + j + "]", '['), ']') == j
  {
    PyText.RemoveCharAppend("[" + j, "]", '[');
    PyText.RemoveCharAppend("[", j, '[');
    PyText.RemoveCharAppend(j, "]", ']');
  }

  /** Non-empty text whose unbracketed form joins comma-free pieces decodes to their values. */
  lemma DecodePieces(ps: seq<string>, xs: seq<int>, text: string)
    requires |ps| > 0 && |text| > 0
    requires forall k :: 0 <= k < |ps| ==> ',' !in ps[k]
    requires PyText.RemoveChar(PyText.RemoveChar(text, '['), ']') == PyText.Join(ps, ',')
    requires ParseAll(ps) == Ok(xs)
    ensures Decode(text) == Ok(xs)
  {
    PyText.SplitJoin(ps, ',');
  }

  /** Non-empty text with a piece that is not an integer raises `ValueError`. */
  lemma DecodeRejects(ps: seq<string>, text: string, k: nat)
    requires |ps| > 0 && |text| > 0
    requires forall j :: 0 <= j < |ps| ==> ',' !in ps[j]
    requires PyText.RemoveChar(PyText.RemoveChar(text, '['), ']') == PyText.Join(ps, ',')
    requires k < |ps| && Decimal.ParseInt(ps[k]).None?
    ensures Decode(text) == Err(ValueError)
  {
    PyText.SplitJoin(ps, ',');
  }

  /** Every vector survives a trip through the column, the empty one included. */
  lemma DecodeEncode(xs: seq<int>)
    ensures Decode(Encode(xs)) == Ok(xs)
  {
    EncodeEmpty(xs);
    if |xs| > 0 {
      EncodeNoBrackets(xs);
      TextsPlain(xs);
      ParseTexts(xs);
      DecodePieces(Texts(xs), xs, Encode(xs));
    }
  }

  /** Bracketed text, as a list's `repr` would leave it, reads the same for a non-empty vector. */
  lemma DecodeBracketed(xs: seq<int>)
    requires |xs| > 0
    ensures Decode("[" + Encode(xs) + "]") == Ok(xs)
  {
    EncodeNoBrackets(xs);
    UnwrapBrackets(Encode(xs));
    TextsPlain(xs);
    ParseTexts(xs);
    DecodePieces(Texts(xs), xs, "[" + Encode(xs) + "]");
  }

  /** `"[]"` is not empty text, and its only piece is `""`, which `int` rejects. */
  lemma DecodeEmptyBrackets()
    ensures Decode("[]") == Err(ValueError)
  {
    assert PyText.RemoveChar("[]", '[') == "]";
    assert PyText.RemoveChar("]", ']') == "";
    assert PyText.Split("", ',') == [""];
    assert PyText.Strip("") == "";
  }

  lemma {:induction false} ParseAllValues(ps: seq<string>, xs: seq<int>)
    requires |ps| == |xs|
    requires forall k :: 0 <= k < |ps| ==> Decimal.ParseInt(ps[k]) == Some(xs[k])
    ensures ParseAll(ps) == Ok(xs)
  {
    if |ps| > 0 {
      assert forall k :: 0 <= k < |ps| - 1 ==> ps[1..][k] == ps[k + 1] && xs[1..][k] == xs[k + 1];
      ParseAllValues(ps[1..], xs[1..]);
      assert [xs[0]] + xs[1..] == xs;
    }
  }

  /** The JSON array spelling `[1, 2, 3]`: a space after every comma. */
  function JsonText(xs: seq<int>): string
    requires |xs| > 0
  {
    "[" + PyText.Join(JsonPieces(xs), ',') + "]"
  }

  function JsonPieces(xs: seq<int>): (ps: seq<string>)
    requires |xs| > 0
    ensures |ps| == |xs|
    ensures ps[0] == Decimal.IntToString(xs[0])
    ensures forall k :: 1 <= k < |ps| ==> ps[k] == " " + Decimal.IntToString(xs[k])
  {
    var rest := Spaced(xs[1..]);
    assert forall k :: 1 <= k < |xs| ==> rest[k - 1] == " " + Decimal.IntToString(xs[k]);
    [Decimal.IntToString(xs[0])] + rest
  }

  /** Every level written with `str` after a space. */
  function Spaced(xs: seq<int>): (ps: seq<string>)
    ensures |ps| == |xs|
    ensures forall k :: 0 <= k < |ps| ==> ps[k] == " " + Decimal.IntToString(xs[k])
  {
    if |xs| == 0 then [] else [" " + Decimal.IntToString(xs[0])] + Spaced(xs[1..])
  }

  /** A level written with `str`, with or without a space before it, holds no comma or bracket. */
  lemma PiecePlain(x: int, p: string)
    requires p == Decimal.IntToString(x) || p == " " + Decimal.IntToString(x)
    ensures ',' !in p && '[' !in p && ']' !in p
  {
    var t := Decimal.IntToString(x);
    assert forall i :: 0 <= i < |t| ==> t[i] != ',' && t[i] != '[' && t[i] != ']';
  }

  lemma JsonPiece(xs: seq<int>, k: nat)
    requires k < |xs|
    ensures ',' !in JsonPieces(xs)[k] && '[' !in JsonPieces(xs)[k] && ']' !in JsonPieces(xs)[k]
    ensures Decimal.ParseInt(JsonPieces(xs)[k]) == Some(xs[k])
  {
    var p := JsonPieces(xs)[k];
    PiecePlain(xs[k], p);
    if k == 0 {
      Decimal.IntToStringRoundTrip(xs[0]);
    } else {
      Decimal.LeadingSpaceTolerated(xs[k]);
    }
  }

  /** The other on-disk spelling, a JSON array, also reads back to the same vector. */
  lemma DecodeJson(xs: seq<int>)
    requires |xs| > 0
    ensures Decode(JsonText(xs)) == Ok(xs)
  {
    var ps := JsonPieces(xs);
    forall k | 0 <= k < |ps|
      ensures ',' !in ps[k] && '[' !in ps[k] && ']' !in ps[k]
      ensures Decimal.ParseInt(ps[k]) == Some(xs[k])
    {
      JsonPiece(xs, k);
    }
    ParseAllValues(ps, xs);
    var j := PyText.Join(ps, ',');
    JoinPlain(ps, ',', '[');
    JoinPlain(ps, ',', ']');
    UnwrapBrackets(j);
    DecodePieces(ps, xs, JsonText(xs));
  }
}

=== FILE: overall.dfy ===
/**
 * The overall tab: one chart of all workers' vectors added up position by
 * position. The running total starts as one zero per category and grows
 * whenever a worker's vector is longer than it.
 */
module Overall {

  function Max(a: int, b: int): int {
    if a < b then b else a
  }

  /** `v[i]` when the vector has a position `i`, otherwise nothing to add. */
  function Entry(v: seq<int>, i: nat): int {
    if i < |v| then v[i] else 0
  }

  /** The sum of position `i` over the workers whose vector reaches it. */
  function ColumnSum(ws: seq<seq<int>>, i: nat): int {
    if |ws| == 0 then 0 else ColumnSum(ws[..|ws| - 1], i) + Entry(ws[|ws| - 1], i)
  }

  /** The length of the longest vector, 0 for no vectors. */
  function MaxLen(ws: seq<seq<int>>): nat {
    if |ws| == 0 then 0 else Max(MaxLen(ws[..|ws| - 1]), |ws[|ws| - 1]|)
  }

  /**
   * What the chart receives: nothing at all without workers, otherwise one
   * column sum per position up to the category count or the longest vector,
   * whichever is larger.
   */
  function Aggregated(ws: seq<seq<int>>, n: nat): (r: seq<int>)
    ensures |ws| == 0 ==> r == []
    ensures |ws| > 0 ==> n <= |r| && forall k :: 0 <= k < |ws| ==> |ws[k]| <= |r|
  {
    MaxLenBounds(ws);
    if |ws| == 0 then []
    else seq(Max(n, MaxLen(ws)), i requires 0 <= i => ColumnSum(ws, i))
  }

  /** No vector is longer than the longest. */
  lemma {:induction false} MaxLenBounds(ws: seq<seq<int>>)
    ensures forall k :: 0 <= k < |ws| ==> |ws[k]| <= MaxLen(ws)
  {
    if |ws| > 0 {
      MaxLenBounds(ws[..|ws| - 1]);
      assert forall k :: 0 <= k < |ws| - 1 ==> ws[k] == ws[..|ws| - 1][k];
    }
  }

  lemma {:induction false} ColumnSumBeyond(ws: seq<seq<int>>, i: nat)
    requires i >= MaxLen(ws)
    ensures ColumnSum(ws, i) == 0
  {
    if |ws| > 0 {
      ColumnSumBeyond(ws[..|ws| - 1], i);
    }
  }

  /** The aggregation loop of `update_chart`. */
  method UpdateChart(ws: seq<seq<int>>, n: nat) returns (agg: seq<int>)
    ensures |ws| == 0 ==> agg == []
    ensures |ws| > 0 ==> |agg| == Max(n, MaxLen(ws))
    ensures |ws| > 0 ==> forall i :: 0 <= i < |agg| ==> agg[i] == ColumnSum(ws, i)
    ensures agg == Aggregated(ws, n)
  {
    if |ws| == 0 {
      return [];
    }
    agg := seq(n, _ => 0);
    var k := 0;
    while k < |ws|
      invariant 0 <= k <= |ws|
      invariant |agg| == Max(n, MaxLen(ws[..k]))
      invariant forall i :: 0 <= i < |agg| ==> agg[i] == ColumnSum(ws[..k], i)
    {
      var w := ws[k];
      var before := ws[..k];
      var j := 0;
      while j < |w|
        invariant 0 <= j <= |w|
        invariant |agg| == Max(Max(n, MaxLen(before)), j)
        invariant forall i :: 0 <= i < |agg| ==> agg[i] == ColumnSum(before, i) + (if i < j then w[i] else 0)
      {
        if j < |agg| {
          agg := agg[j := agg[j] + w[j]];
        } else {
          ColumnSumBeyond(before, j);
          agg := agg + [w[j]];
        }
        j := j + 1;
      }
      assert ws[..k + 1][..k] == before && ws[..k + 1][k] == w;
      assert forall i :: 0 <= i < |agg| ==> agg[i] == ColumnSum(ws[..k + 1], i);
      k := k + 1;
    }
    assert ws[..|ws|] == ws;
  }

  lemma {:induction false} ColumnSumConcat(a: seq<seq<int>>, b: seq<seq<int>>, i: nat)
    ensures ColumnSum(a + b, i) == ColumnSum(a, i) + ColumnSum(b, i)
    decreases |b|
  {
    if |b| == 0 {
      assert a + b == a;
    } else {
      assert (a + b)[..|a + b| - 1] == a + b[..|b| - 1];
      ColumnSumConcat(a, b[..|b| - 1], i);
    }
  }

  lemma {:induction false} MaxLenConcat(a: seq<seq<int>>, b: seq<seq<int>>)
    ensures MaxLen(a + b) == Max(MaxLen(a), MaxLen(b))
    decreases |b|
  {
    if |b| == 0 {
      assert a + b == a;
    } else {
      assert (a + b)[..|a + b| - 1] == a + b[..|b| - 1];
      MaxLenConcat(a, b[..|b| - 1]);
    }
  }

  lemma Single(v: seq<int>, i: nat)
    ensures ColumnSum([v], i) == Entry(v, i) && MaxLen([v]) == |v|
  {
    assert [v][..0] == [];
  }

  /** Taking worker `p` out of the list takes its entry out of every column. */
  lemma RemoveAt(b: seq<seq<int>>, p: nat, i: nat)
    requires p < |b|
    ensures multiset(b[..p] + b[p + 1..]) == multiset(b) - multiset{b[p]}
    ensures ColumnSum(b, i) == ColumnSum(b[..p] + b[p + 1..], i) + Entry(b[p], i)
    ensures MaxLen(b) == Max(MaxLen(b[..p] + b[p + 1..]), |b[p]|)
  {
    var last := b[p];
    assert b == b[..p] + [last] + b[p + 1..];
    assert multiset(b) == multiset(b[..p]) + multiset{last} + multiset(b[p + 1..]);
    ColumnSumConcat(b[..p], [last], i);
    ColumnSumConcat(b[..p] + [last], b[p + 1..], i);
    ColumnSumConcat(b[..p], b[p + 1..], i);
    MaxLenConcat(b[..p], [last]);
    MaxLenConcat(b[..p] + [last], b[p + 1..]);
    MaxLenConcat(b[..p], b[p + 1..]);
    Single(last, i);
  }

  /** Reordering the workers changes neither the length nor any column sum. */
  lemma {:induction false} PermutationInvariant(a: seq<seq<int>>, b: seq<seq<int>>, i: nat)
    requires multiset(a) == multiset(b)
    ensures ColumnSum(a, i) == ColumnSum(b, i) && MaxLen(a) == MaxLen(b)
    decreases |a|
  {
    if |a| == 0 {
      assert |b| == |multiset(b)| == 0;
    } else {
      var last := a[|a| - 1];
      var init := a[..|a| - 1];
      assert a == init + [last];
      assert multiset(init) == multiset(a) - multiset{last};
      assert last in multiset(b);
      var p :| 0 <= p < |b| && b[p] == last;
      RemoveAt(b, p, i);
      PermutationInvariant(init, b[..p] + b[p + 1..], i);
    }
  }

  /** The overall chart does not depend on the order the store returns the workers in. */
  lemma AggregatedOrderFree(a: seq<seq<int>>, b: seq<seq<int>>, n: nat)
    requires multiset(a) == multiset(b)
    ensures Aggregated(a, n) == Aggregated(b, n)
  {
    assert |a| == |multiset(a)| == |multiset(b)| == |b|;
    if |a| > 0 {
      PermutationInvariant(a, b, 0);
      forall i: nat | i < Max(n, MaxLen(a))
        ensures ColumnSum(a, i) == ColumnSum(b, i)
      {
        PermutationInvariant(a, b, i);
      }
    }
  }

  lemma Example()
    ensures Aggregated([[1, 2, 3], [5, 4, 3], [2, 2, 2]], 3) == [8, 8, 8]
  {
    var ws: seq<seq<int>> := [[1, 2, 3], [5, 4, 3], [2, 2, 2]];
    assert ws[..2] == [[1, 2, 3], [5, 4, 3]];
    assert ws[..2][..1] == [[1, 2, 3]];
    assert |ws[..2][..1][..0]| == 0;
    assert MaxLen(ws[..2][..1]) == 3;
    assert MaxLen(ws[..2]) == 3;
    assert MaxLen(ws) == 3;
    assert ColumnSum(ws[..2][..1], 0) == 1 && ColumnSum(ws[..2][..1], 1) == 2 && ColumnSum(ws[..2][..1], 2) == 3;
    assert ColumnSum(ws[..2], 0) == 6 && ColumnSum(ws[..2], 1) == 6 && ColumnSum(ws[..2], 2) == 6;
    assert ColumnSum(ws, 0) == 8 && ColumnSum(ws, 1) == 8 && ColumnSum(ws, 2) == 8;
  }
}

=== FILE: pdf_layout.dfy ===
/**
 * The layout arithmetic of the PDF report: eight workers a page on a grid of
 * four columns by two rows, a frame for every worker, and a radar chart, a
 * separator and the name for every worker whose levels match its categories.
 * A chart is the closed polygon of its levels at `radius*d/4`, with one label
 * per category nudged by the sector its angle falls in.
 */
module PdfLayout {
  import opened Wrappers
  import PyText
  import WorkerRecords

  type WorkerData = WorkerRecords.WorkerData

  const PerPage: nat := 8

  /** `num_pages = (num_workers + 7) // 8` */
  function PageCount(n: nat): (p: nat)
    ensures PerPage * p >= n
    ensures p > 0 ==> PerPage * (p - 1) < n
  {
    (n + 7) / 8
  }

  lemma PageCountExamples()
    ensures PageCount(0) == 0 && PageCount(1) == 1 && PageCount(8) == 1
    ensures PageCount(9) == 2 && PageCount(16) == 2 && PageCount(17) == 3
  {
  }

  /** A place on a page: `x_positions[column]`, `y_positions[row]`. */
  datatype Slot = Slot(column: nat, row: nat)

  /** Worker `i` sits at column `i % 4` and row `(i // 4) % 2` of page `i // 8`. */
  function SlotOf(i: nat): (s: Slot)
    ensures s.column < 4 && s.row < 2
    ensures i == PerPage * (i / PerPage) + 4 * s.row + s.column
  {
    Slot(i % 4, (i / 4) % 2)
  }

  /** Two workers of one page never share a slot. */
  lemma SlotsDistinct(i: nat, j: nat)
    requires i / PerPage == j / PerPage && i != j
    ensures SlotOf(i) != SlotOf(j)
  {
  }

  /** The lower bounds of the label sectors, in degrees; the last sector wraps round to the first. */
  const SectorStarts: seq<real> := [25.0, 65.0, 115.0, 155.0, 205.0, 245.0, 295.0, 335.0]

  /** The label nudge of each sector, counter-clockwise from 0 degrees. */
  const Nudges: seq<(int, int)> := [(5, -5), (3, 3), (0, 5), (-3, 3), (-5, -5), (-3, -5), (0, -10), (3, -5)]

  /** How many of the first `k` sector starts lie at or below `deg`. */
  function StartsPassed(deg: real, k: nat): (r: nat)
    requires k <= |SectorStarts|
    ensures r <= k
  {
    if k == 0 then 0 else StartsPassed(deg, k - 1) + (if SectorStarts[k - 1] <= deg then 1 else 0)
  }

  /** The sector of an angle in degrees: the number of sector starts it has passed, the ninth sector being the first. */
  function Sector(deg: real): (r: nat)
    ensures r < |Nudges|
  {
    StartsPassed(deg, |SectorStarts|) % |Nudges|
  }

  /** `calculate_label_offset`, on the angle already in degrees. */
  function LabelOffset(deg: real): (r: (int, int))
    ensures r == (0, 0) <==> !(0.0 <= deg <= 360.0)
    ensures 0.0 <= deg <= 360.0 ==> r in Nudges
  {
    if (0.0 <= deg < 25.0) || (335.0 <= deg <= 360.0) then (5, -5)
    else if 25.0 <= deg < 65.0 then (3, 3)
    else if 65.0 <= deg < 115.0 then (0, 5)
    else if 115.0 <= deg < 155.0 then (-3, 3)
    else if 155.0 <= deg < 205.0 then (-5, -5)
    else if 205.0 <= deg < 245.0 then (-3, -5)
    else if 245.0 <= deg < 295.0 then (0, -10)
    else if 295.0 <= deg < 335.0 then (3, -5)
    else (0, 0)
  }

  /** Every angle of a turn gets the nudge of its sector. */
  lemma LabelOffsetBySector(deg: real)
    requires 0.0 <= deg <= 360.0
    ensures LabelOffset(deg) == Nudges[Sector(deg)]
  {
    var b0 := if 25.0 <= deg then 1 else 0;
    var b1 := if 65.0 <= deg then 1 else 0;
    var b2 := if 115.0 <= deg then 1 else 0;
    var b3 := if 155.0 <= deg then 1 else 0;
    var b4 := if 205.0 <= deg then 1 else 0;
    var b5 := if 245.0 <= deg then 1 else 0;
    var b6 := if 295.0 <= deg then 1 else 0;
    var b7 := if 335.0 <= deg then 1 else 0;
    assert StartsPassed(deg, 1) == b0;
    assert StartsPassed(deg, 2) == b0 + b1;
    assert StartsPassed(deg, 3) == b0 + b1 + b2;
    assert StartsPassed(deg, 4) == b0 + b1 + b2 + b3;
    assert StartsPassed(deg, 5) == b0 + b1 + b2 + b3 + b4;
    assert StartsPassed(deg, 6) == b0 + b1 + b2 + b3 + b4 + b5;
    assert StartsPassed(deg, 7) == b0 + b1 + b2 + b3 + b4 + b5 + b6;
    assert StartsPassed(deg, 8) == b0 + b1 + b2 + b3 + b4 + b5 + b6 + b7;
  }

  lemma LabelOffsetExamples()
    ensures LabelOffset(0.0) == (5, -5) && LabelOffset(90.0) == (0, 5)
    ensures LabelOffset(180.0) == (-5, -5) && LabelOffset(270.0) == (0, -10)
    ensures LabelOffset(360.0) == (5, -5) && LabelOffset(-1.0) == (0, 0)
  {
  }

  /** The angle of category `i` of `n`, in degrees: `linspace(0, 2*pi, n, endpoint=False)[i]`. */
  function AngleDegrees(i: nat, n: nat): (r: real)
    requires n > 0
    ensures r * (n as real) == 360.0 * (i as real)
    ensures i < n ==> 0.0 <= r < 360.0
  {
    360.0 * (i as real) / (n as real)
  }

  /** Category angles lie in [0, 360), so every label is nudged. */
  lemma CategoryLabelsNudged(i: nat, n: nat)
    requires i < n
    ensures 0.0 <= AngleDegrees(i, n) < 360.0
    ensures LabelOffset(AngleDegrees(i, n)) != (0, 0)
  {
    var a := AngleDegrees(i, n);
    assert a * (n as real) == 360.0 * (i as real);
    assert 360.0 * (i as real) < 360.0 * (n as real);
  }

  /** `xs += xs[:1]`: the first element appended again, closing the polygon. */
  function Closure<T>(xs: seq<T>): (r: seq<T>)
    ensures |xs| == 0 ==> r == []
    ensures |xs| > 0 ==> |r| == |xs| + 1 && r[..|xs|] == xs && r[|xs|] == r[0]
  {
    if |xs| == 0 then xs else xs + [xs[0]]
  }

  /** The distance from the centre of a point of level `d`. */
  function ScaledRadius(radius: real, d: int): (r: real)
    ensures 4.0 * r == radius * (d as real)
    ensures d == 0 ==> r == 0.0
    ensures d == 4 ==> r == radius
  {
    radius * (d as real) / 4.0
  }

  /** The four scale circles, `radius * i / 4` for `i` in 1..4. */
  function Rings(radius: real): (r: seq<real>)
    ensures |r| == 4 && r[3] == radius
  {
    [radius / 4.0, radius * 2.0 / 4.0, radius * 3.0 / 4.0, radius]
  }

  /** Levels 1 to 4 land on the scale circles; level 5 lies a quarter radius outside the outer one. */
  lemma LevelsOnRings(radius: real, d: int)
    requires 1 <= d <= 4
    ensures ScaledRadius(radius, d) == Rings(radius)[d - 1]
    ensures ScaledRadius(radius, 5) == 1.25 * radius
  {
  }

  /** A higher level is drawn further out. */
  lemma ScaleMonotone(radius: real, a: int, b: int)
    requires radius > 0.0 && a < b
    ensures ScaledRadius(radius, a) < ScaledRadius(radius, b)
  {
    assert (a as real) < (b as real);
    assert radius * (a as real) < radius * (b as real);
  }

  /** `calculate_data_points`, as radial distances: one point per data entry. */
  method CalculateDataPoints(data: seq<int>, radius: real) returns (points: seq<real>)
    ensures |points| == |data|
    ensures forall i :: 0 <= i < |data| ==> points[i] == ScaledRadius(radius, data[i])
  {
    points := [];
    var i := 0;
    while i < |data|
      invariant 0 <= i <= |data| && |points| == i
      invariant forall k :: 0 <= k < i ==> points[k] == ScaledRadius(radius, data[k])
    {
      points := points + [ScaledRadius(radius, data[i])];
      i := i + 1;
    }
  }

  /** The point distances of a closed polygon: one per closed data entry. */
  function PolygonRadii(data: seq<int>, radius: real): (r: seq<real>)
    ensures |data| == 0 ==> r == []
    ensures |data| > 0 ==> |r| == |data| + 1 && r[|data|] == r[0]
    ensures forall i :: 0 <= i < |data| ==> r[i] == radius * (data[i] as real) / 4.0
  {
    var closed := Closure(data);
    seq(|closed|, i requires 0 <= i < |closed| => ScaledRadius(radius, closed[i]))
  }

  /** The polygon of a non-empty vector ends where it starts. */
  lemma PolygonCloses(data: seq<int>, radius: real)
    requires |data| > 0
    ensures |PolygonRadii(data, radius)| == |data| + 1
    ensures PolygonRadii(data, radius)[|data|] == PolygonRadii(data, radius)[0]
  {
  }

  const WaterSpider: string := "ウォータースパイダー"
  const WaterSpiderLines: string := "ウォーター\nスパイダー"
  const EveryLabeler: string := "エブリラベラー"
  const EveryLabelerLines: string := "エブリ\nラベラー"

  /** `draw_label`: the two long category names are broken in two, then the label is cut at newlines. */
  function LabelLines(text: string): (lines: seq<string>)
    ensures |lines| >= 1
    ensures forall k :: 0 <= k < |lines| ==> '\n' !in lines[k]
  {
    PyText.Split(PyText.Replace(PyText.Replace(text, WaterSpider, WaterSpiderLines), EveryLabeler, EveryLabelerLines), '\n')
  }

  /** A label without newlines and without either long name is drawn as one line, unchanged. */
  lemma PlainLabelOneLine(text: string)
    requires '\n' !in text
    requires !PyText.Contains(text, WaterSpider) && !PyText.Contains(text, EveryLabeler)
    ensures LabelLines(text) == [text]
  {
    PyText.ReplaceAbsent(text, WaterSpider, WaterSpiderLines);
    PyText.ReplaceAbsent(text, EveryLabeler, EveryLabelerLines);
    PyText.SplitNoSep(text, '\n');
  }

  /** "ウォータースパイダー" is drawn as "ウォーター" over "スパイダー". */
  lemma WaterSpiderSplit()
    ensures LabelLines(WaterSpider) == ["ウォーター", "スパイダー"]
  {
    var once := PyText.Replace(WaterSpider, WaterSpider, WaterSpiderLines);
    PyText.ReplaceWhole(WaterSpider, WaterSpiderLines);
    WaterSpiderLinesPlain();
    PyText.ReplaceAbsent(once, EveryLabeler, EveryLabelerLines);
    WaterSpiderLinesSplit();
  }

  /** The broken "ウォータースパイダー" holds no "エブリラベラー". */
  lemma WaterSpiderLinesPlain()
    ensures !PyText.Contains(WaterSpiderLines, EveryLabeler)
  {
    assert forall i :: 0 <= i < |WaterSpiderLines| ==> WaterSpiderLines[i] != EveryLabeler[0];
    PyText.HeadAbsent(WaterSpiderLines, EveryLabeler);
  }

  /** The broken "ウォータースパイダー" splits at its newline into its two halves. */
  lemma WaterSpiderLinesSplit()
    ensures PyText.Split(WaterSpiderLines, '\n') == ["ウォーター", "スパイダー"]
  {
    assert WaterSpiderLines == "ウォーター" + ['\n'] + "スパイダー";
    PyText.SplitPiece("ウォーター", '\n', "スパイダー");
    PyText.SplitNoSep("スパイダー", '\n');
  }

  /** "エブリラベラー" is drawn as "エブリ" over "ラベラー". */
  lemma EveryLabelerSplit()
    ensures LabelLines(EveryLabeler) == ["エブリ", "ラベラー"]
  {
    EveryLabelerPlain();
    PyText.ReplaceAbsent(EveryLabeler, WaterSpider, WaterSpiderLines);
    PyText.ReplaceWhole(EveryLabeler, EveryLabelerLines);
    EveryLabelerLinesSplit();
  }

  /** "エブリラベラー" holds no "ウォータースパイダー". */
  lemma EveryLabelerPlain()
    ensures !PyText.Contains(EveryLabeler, WaterSpider)
  {
    assert forall i :: 0 <= i < |EveryLabeler| ==> EveryLabeler[i] != WaterSpider[0];
    PyText.HeadAbsent(EveryLabeler, WaterSpider);
  }

  /** The broken "エブリラベラー" splits at its newline into its two halves. */
  lemma EveryLabelerLinesSplit()
    ensures PyText.Split(EveryLabelerLines, '\n') == ["エブリ", "ラベラー"]
  {
    assert EveryLabelerLines == "エブリ" + ['\n'] + "ラベラー";
    PyText.SplitPiece("エブリ", '\n', "ラベラー");
    PyText.SplitNoSep("ラベラー", '\n');
  }

  /** A label holding either long name is drawn on at least two lines. */
  lemma LongLabelBroken(text: string)
    requires PyText.Contains(text, WaterSpider) || PyText.Contains(text, EveryLabeler)
    ensures |LabelLines(text)| >= 2
  {
    var first := PyText.Replace(text, WaterSpider, WaterSpiderLines);
    assert '\n' in WaterSpiderLines && '\n' in EveryLabelerLines;
    if PyText.Contains(text, WaterSpider) {
      PyText.ReplaceIntroducesNewline(text, WaterSpider, WaterSpiderLines);
      PyText.ReplaceKeepsNewline(first, EveryLabeler, EveryLabelerLines);
    } else {
      PyText.ReplaceAbsent(text, WaterSpider, WaterSpiderLines);
      PyText.ReplaceIntroducesNewline(first, EveryLabeler, EveryLabelerLines);
    }
    PyText.SplitAtSeparator(PyText.Replace(first, EveryLabeler, EveryLabelerLines), '\n');
  }

  /** The skip rule: a chart needs categories, levels, and as many of one as of the other. */
  predicate Chartable(w: WorkerData) {
    |w.categories| > 0 && |w.skillLevels| > 0 && |w.skillLevels| == |w.categories|
  }

  /**
   * The loop's two skip tests and `draw_radar_chart`'s own guard agree: a
   * worker reaches the chart exactly when it is `Chartable`, and then the
   * chart's guard never refuses it.
   */
  lemma SkipRuleGuards(w: WorkerData)
    ensures Chartable(w) <==>
      !(|w.categories| == 0 || |w.skillLevels| == 0) && |w.skillLevels| == |w.categories|
    ensures Chartable(w) ==>
      !(|w.categories| == 0 || |w.skillLevels| == 0 || |w.categories| != |w.skillLevels|)
  {
  }

  /** What `draw_radar_chart` draws: the closed polygon, and per category a nudge and the label lines. */
  datatype Chart = Chart(radii: seq<real>, offsets: seq<(int, int)>, labels: seq<seq<string>>)

  /**
   * One worker's cell: its frame is always drawn; `chart` is present exactly
   * when the chart, the separator line and the name are drawn as well.
   */
  datatype Panel = Panel(name: string, slot: Slot, chart: Option<Chart>)

  function RadarChart(w: WorkerData, radius: real): (c: Chart)
    requires Chartable(w)
    ensures |c.radii| == |w.skillLevels| + 1 && c.radii[|w.skillLevels|] == c.radii[0]
    ensures |c.offsets| == |c.labels| == |w.categories|
    ensures forall i :: 0 <= i < |c.offsets| ==> c.offsets[i] != (0, 0)
    ensures forall i :: 0 <= i < |w.skillLevels| ==> c.radii[i] == radius * (w.skillLevels[i] as real) / 4.0
    ensures forall i :: 0 <= i < |c.offsets| ==> c.offsets[i] == Nudges[Sector(AngleDegrees(i, |w.categories|))]
    ensures forall i :: 0 <= i < |c.labels| ==> c.labels[i] == LabelLines(w.categories[i])
  {
    var n := |w.categories|;
    assert forall i :: 0 <= i < n ==>
      LabelOffset(AngleDegrees(i, n)) != (0, 0) && LabelOffset(AngleDegrees(i, n)) == Nudges[Sector(AngleDegrees(i, n))] by {
      forall i | 0 <= i < n
        ensures LabelOffset(AngleDegrees(i, n)) != (0, 0)
        ensures LabelOffset(AngleDegrees(i, n)) == Nudges[Sector(AngleDegrees(i, n))]
      {
        CategoryLabelsNudged(i, n);
        LabelOffsetBySector(AngleDegrees(i, n));
      }
    }
    Chart(PolygonRadii(w.skillLevels, radius),
          seq(n, i requires 0 <= i < n => LabelOffset(AngleDegrees(i, n))),
          seq(n, i requires 0 <= i < n => LabelLines(w.categories[i])))
  }

  /** The cell of worker `i`. */
  function PanelFor(entries: seq<(string, WorkerData)>, i: nat, radius: real): (p: Panel)
    requires i < |entries|
    ensures p.name == entries[i].0 && p.slot == SlotOf(i)
    ensures p.chart.Some? <==> Chartable(entries[i].1)
  {
    var w := entries[i].1;
    Panel(entries[i].0, SlotOf(i), if Chartable(w) then Some(RadarChart(w, radius)) else None)
  }

  /** How many of the first `upto` workers fall on page `page`. */
  function OnPage(upto: nat, page: nat): nat {
    if upto <= PerPage * page then 0
    else if upto - PerPage * page < PerPage then upto - PerPage * page
    else PerPage
  }

  /** The inner loop over `enumerate(worker_data.items())` for one page, up to worker `upto`. */
  function PagePanels(entries: seq<(string, WorkerData)>, upto: nat, page: nat, radius: real): (r: seq<Panel>)
    requires upto <= |entries|
    ensures |r| == OnPage(upto, page)
    ensures forall k :: 0 <= k < |r| ==> PerPage * page + k < |entries| && r[k] == PanelFor(entries, PerPage * page + k, radius)
  {
    if upto == 0 then []
    else
      var before := PagePanels(entries, upto - 1, page, radius);
      if (upto - 1) / PerPage != page then before
      else before + [PanelFor(entries, upto - 1, radius)]
  }

  /**
   * `export_to_pdf`, with the records left as they are: page `p` holds the
   * workers `8p` to `8p+7` in order, and every worker appears once.
   */
  function ExportPdf(entries: seq<(string, WorkerData)>, radius: real): (pages: seq<seq<Panel>>)
    ensures |pages| == PageCount(|entries|)
    ensures forall p :: 0 <= p < |pages| ==> 1 <= |pages[p]| <= PerPage
    ensures forall p, k :: 0 <= p < |pages| && 0 <= k < |pages[p]| ==>
      PerPage * p + k < |entries| && pages[p][k] == PanelFor(entries, PerPage * p + k, radius)
  {
    seq(PageCount(|entries|), p requires 0 <= p < PageCount(|entries|) => PagePanels(entries, |entries|, p, radius))
  }

  /** Each worker is found on page `i // 8` at position `i % 8`, with or without its chart. */
  lemma EveryWorkerPlaced(entries: seq<(string, WorkerData)>, radius: real, i: nat)
    requires i < |entries|
    ensures i / PerPage < |ExportPdf(entries, radius)|
    ensures i % PerPage < |ExportPdf(entries, radius)[i / PerPage]|
    ensures ExportPdf(entries, radius)[i / PerPage][i % PerPage] == PanelFor(entries, i, radius)
  {
  }

  /** Nine workers fill two pages, eight and one; a mismatched worker loses only its own chart. */
  lemma NineWorkers(entries: seq<(string, WorkerData)>, radius: real)
    requires |entries| == 9
    ensures |ExportPdf(entries, radius)| == 2
    ensures |ExportPdf(entries, radius)[0]| == 8 && |ExportPdf(entries, radius)[1]| == 1
    ensures forall i :: 0 <= i < 9 ==>
      (ExportPdf(entries, radius)[i / PerPage][i % PerPage].chart.Some? <==> Chartable(entries[i].1))
  {
    forall i | 0 <= i < 9
      ensures ExportPdf(entries, radius)[i / PerPage][i % PerPage].chart.Some? <==> Chartable(entries[i].1)
    {
      EveryWorkerPlaced(entries, radius, i);
    }
  }

  /**
   * Where a worker's `skill_levels` list lives. Python lists are shared by
   * reference, so two items of `worker_data` can hold the same list.
   */
  type Ref = nat

  /** The lists the export can reach, by reference. */
  type Store = map<Ref, seq<int>>

  /** One item of `worker_data`: its key, and a worker whose levels are the list at `levels`. */
  datatype Entry = Entry(key: string, name: string, categories: seq<string>, levels: Ref)

  predicate Allocated(entries: seq<Entry>, store: Store) {
    forall i :: 0 <= i < |entries| ==> entries[i].levels in store
  }

  /** No two items share a level list. */
  predicate Unshared(entries: seq<Entry>) {
    forall i, j :: 0 <= i < j < |entries| ==> entries[i].levels != entries[j].levels
  }

  /** The items as plain records, each worker holding the list its reference points at. */
  function Resolve(entries: seq<Entry>, store: Store): (r: seq<(string, WorkerData)>)
    requires Allocated(entries, store)
    ensures |r| == |entries|
    ensures forall i :: 0 <= i < |r| ==> r[i].0 == entries[i].key && r[i].1.name == entries[i].name
    ensures forall i :: 0 <= i < |r| ==>
      r[i].1.categories == entries[i].categories && r[i].1.skillLevels == store[entries[i].levels]
  {
    seq(|entries|, i requires 0 <= i < |entries| =>
      (entries[i].key, WorkerRecords.WorkerData(entries[i].name, entries[i].categories, store[entries[i].levels])))
  }

  /** Whether `draw_radar_chart` closes the polygon on the caller's list, as written, or on a copy. */
  datatype Closing = InPlace | OnCopy

  /** The list `draw_radar_chart` leaves behind in the caller's hands. */
  function LeftBehind(levels: seq<int>, mode: Closing): (r: seq<int>)
    ensures mode == OnCopy ==> r == levels
    ensures mode == InPlace && |levels| > 0 ==> |r| == |levels| + 1 && r[..|levels|] == levels && r[|levels|] == levels[0]
  {
    if mode == InPlace then Closure(levels) else levels
  }

  /** A cell drawn, and the store after drawing it. */
  datatype Drawn = Drawn(panel: Panel, store: Store)

  /**
   * One pass of the inner loop for worker `i`: the frame always, the chart
   * when the worker passes the skip rule, and the chart's closure of the list
   * it was handed.
   */
  function DrawCell(entries: seq<Entry>, store: Store, i: nat, radius: real, mode: Closing): (d: Drawn)
    requires Allocated(entries, store) && i < |entries|
    ensures d.panel == PanelFor(Resolve(entries, store), i, radius)
    ensures d.store.Keys == store.Keys
    ensures forall x :: x in store && x != entries[i].levels ==> d.store[x] == store[x]
    ensures d.store[entries[i].levels] ==
      if Chartable(Resolve(entries, store)[i].1) then LeftBehind(store[entries[i].levels], mode)
      else store[entries[i].levels]
  {
    var res := Resolve(entries, store);
    var x := entries[i].levels;
    if Chartable(res[i].1) then Drawn(PanelFor(res, i, radius), store[x := LeftBehind(store[x], mode)])
    else Drawn(PanelFor(res, i, radius), store)
  }

  /** The cells of one page, and the store after them. */
  datatype PageRun = PageRun(panels: seq<Panel>, store: Store)

  /**
   * `for index, (name, worker) in enumerate(worker_data.items())` for page
   * `page`, from `index` on: items of other pages are skipped.
   */
  function PageLoop(entries: seq<Entry>, store: Store, page: nat, index: nat, radius: real, mode: Closing): (r: PageRun)
    requires Allocated(entries, store) && index <= |entries|
    ensures r.store.Keys == store.Keys
    ensures mode == OnCopy ==> r.store == store
    decreases |entries| - index
  {
    if index == |entries| then PageRun([], store)
    else if index / PerPage != page then PageLoop(entries, store, page, index + 1, radius, mode)
    else
      var d := DrawCell(entries, store, index, radius, mode);
      var rest := PageLoop(entries, d.store, page, index + 1, radius, mode);
      PageRun([d.panel] + rest.panels, rest.store)
  }

  /** All pages and the store after them. */
  datatype PdfRun = PdfRun(pages: seq<seq<Panel>>, store: Store)

  /** `for page in range(num_pages)`, from page `page` on. */
  function PagesLoop(entries: seq<Entry>, store: Store, page: nat, radius: real, mode: Closing): (r: PdfRun)
    requires Allocated(entries, store) && page <= PageCount(|entries|)
    ensures r.store.Keys == store.Keys
    ensures mode == OnCopy ==> r.store == store
    ensures |r.pages| == PageCount(|entries|) - page
    decreases PageCount(|entries|) - page
  {
    if page == PageCount(|entries|) then PdfRun([], store)
    else
      var p := PageLoop(entries, store, page, 0, radius, mode);
      var rest := PagesLoop(entries, p.store, page + 1, radius, mode);
      PdfRun([p.panels] + rest.pages, rest.store)
  }

  /** `export_to_pdf` as written, the polygon closed on the worker's own list. */
  function ExportPdfAsWritten(entries: seq<Entry>, store: Store, radius: real): (run: PdfRun)
    requires Allocated(entries, store)
    ensures run.store.Keys == store.Keys && |run.pages| == PageCount(|entries|)
  {
    PagesLoop(entries, store, 0, radius, InPlace)
  }

  /** `export_to_pdf` with the polygon closed on a copy of the list. */
  function ExportPdfFixed(entries: seq<Entry>, store: Store, radius: real): (run: PdfRun)
    requires Allocated(entries, store)
    ensures run.store.Keys == store.Keys && |run.pages| == PageCount(|entries|)
  {
    PagesLoop(entries, store, 0, radius, OnCopy)
  }

  /** The first index a page pass starting at `index` draws on page `page`. */
  function Lo(index: nat, page: nat): nat {
    if index < PerPage * page then PerPage * page else index
  }

  /** One past the last index of page `page` among `n` items. */
  function Hi(n: nat, page: nat): nat {
    if n < PerPage * page + PerPage then n else PerPage * page + PerPage
  }

  /** Drawing item `i` leaves every other item's list alone, given the copy or unshared lists. */
  lemma DrawCellKeepsOthers(entries: seq<Entry>, store: Store, i: nat, radius: real, mode: Closing)
    requires Allocated(entries, store) && i < |entries|
    requires mode == OnCopy || Unshared(entries)
    ensures Allocated(entries, DrawCell(entries, store, i, radius, mode).store)
    ensures forall j :: 0 <= j < |entries| && j != i ==>
      DrawCell(entries, store, i, radius, mode).store[entries[j].levels] == store[entries[j].levels]
    ensures forall j :: 0 <= j < |entries| && j != i ==>
      Resolve(entries, DrawCell(entries, store, i, radius, mode).store)[j] == Resolve(entries, store)[j]
  {
    var d := DrawCell(entries, store, i, radius, mode);
    forall j | 0 <= j < |entries| && j != i
      ensures d.store[entries[j].levels] == store[entries[j].levels]
    {
      if mode == InPlace {
        if j < i { assert entries[j].levels != entries[i].levels; }
        else { assert entries[i].levels != entries[j].levels; }
      }
    }
  }

  /** What a page pass from `index` draws: the cells of page `page` from `index` on, in order. */
  predicate DrawsPage(entries: seq<Entry>, store: Store, page: nat, index: nat, radius: real, panels: seq<Panel>)
    requires Allocated(entries, store)
  {
    var lo := Lo(index, page);
    var hi := Hi(|entries|, page);
    && |panels| == (if lo < hi then hi - lo else 0)
    && forall k :: 0 <= k < |panels| ==>
         lo + k < |entries| && panels[k] == PanelFor(Resolve(entries, store), lo + k, radius)
  }

  /**
   * A page pass from `index` draws, in order, the cells of the items of page
   * `page` from `index` on, each as `PanelFor` sees it in the store the pass
   * began with. This needs either the copy, or no two items sharing a list.
   */
  lemma {:induction false} PageLoopPanels(entries: seq<Entry>, store: Store, page: nat, index: nat, radius: real, mode: Closing)
    requires Allocated(entries, store) && index <= |entries|
    requires mode == OnCopy || Unshared(entries)
    ensures DrawsPage(entries, store, page, index, radius, PageLoop(entries, store, page, index, radius, mode).panels)
    decreases |entries| - index
  {
    if index == |entries| {
    } else if index / PerPage != page {
      PageLoopPanels(entries, store, page, index + 1, radius, mode);
      SkipKeepsPage(entries, store, page, index, radius, PageLoop(entries, store, page, index + 1, radius, mode).panels);
    } else {
      var d := DrawCell(entries, store, index, radius, mode);
      DrawCellKeepsOthers(entries, store, index, radius, mode);
      PageLoopPanels(entries, d.store, page, index + 1, radius, mode);
      DrawExtendsPage(entries, store, d.store, page, index, radius, d.panel, PageLoop(entries, d.store, page, index + 1, radius, mode).panels);
    }
  }

  /** Skipping an item of another page leaves what is still to be drawn unchanged. */
  lemma SkipKeepsPage(entries: seq<Entry>, store: Store, page: nat, index: nat, radius: real, panels: seq<Panel>)
    requires Allocated(entries, store) && index < |entries| && index / PerPage != page
    requires DrawsPage(entries, store, page, index + 1, radius, panels)
    ensures DrawsPage(entries, store, page, index, radius, panels)
  {
    if index < PerPage * page {
      assert Lo(index, page) == Lo(index + 1, page);
    } else {
      assert Hi(|entries|, page) <= Lo(index, page);
    }
  }

  /** Drawing an item of the page, then the rest in the store it left, draws the page from that item on. */
  lemma DrawExtendsPage(entries: seq<Entry>, store: Store, after: Store, page: nat, index: nat, radius: real, panel: Panel, rest: seq<Panel>)
    requires Allocated(entries, store) && Allocated(entries, after) && index < |entries| && index / PerPage == page
    requires panel == PanelFor(Resolve(entries, store), index, radius)
    requires forall j :: 0 <= j < |entries| && j != index ==> Resolve(entries, after)[j] == Resolve(entries, store)[j]
    requires DrawsPage(entries, after, page, index + 1, radius, rest)
    ensures DrawsPage(entries, store, page, index, radius, [panel] + rest)
  {
    assert Lo(index, page) == index && Lo(index + 1, page) == index + 1;
    var res := Resolve(entries, store);
    forall k | 0 <= k < |rest|
      ensures rest[k] == PanelFor(res, index + 1 + k, radius)
    {
      assert Resolve(entries, after)[index + 1 + k] == res[index + 1 + k];
    }
  }

  /**
   * `after` holds, at each item from `lo` up to `hi` that passes the skip
   * rule in `store`, the list the chart left behind, and at every other item
   * the item's list in `store`.
   */
  predicate LeavesLists(entries: seq<Entry>, store: Store, lo: nat, hi: nat, mode: Closing, after: Store)
    requires Allocated(entries, store)
  {
    forall j :: 0 <= j < |entries| ==>
      && entries[j].levels in after
      && after[entries[j].levels] ==
           if lo <= j < hi && Chartable(Resolve(entries, store)[j].1) then LeftBehind(store[entries[j].levels], mode)
           else store[entries[j].levels]
  }

  /**
   * After a page pass from `index`, each item of the page from `index` on
   * that passes the skip rule holds the list the chart left behind, and every
   * other item its own list, given the copy or unshared lists.
   */
  lemma {:induction false} PageLoopLists(entries: seq<Entry>, store: Store, page: nat, index: nat, radius: real, mode: Closing)
    requires Allocated(entries, store) && index <= |entries|
    requires mode == OnCopy || Unshared(entries)
    ensures LeavesLists(entries, store, Lo(index, page), Hi(|entries|, page), mode,
                        PageLoop(entries, store, page, index, radius, mode).store)
    decreases |entries| - index
  {
    if index == |entries| {
    } else if index / PerPage != page {
      PageLoopLists(entries, store, page, index + 1, radius, mode);
      SkipKeepsLists(entries, store, page, index, mode, PageLoop(entries, store, page, index + 1, radius, mode).store);
    } else {
      var d := DrawCell(entries, store, index, radius, mode);
      DrawCellKeepsOthers(entries, store, index, radius, mode);
      PageLoopLists(entries, d.store, page, index + 1, radius, mode);
      assert Lo(index, page) == index && Lo(index + 1, page) == index + 1;
      DrawKeepsLists(entries, store, index, Hi(|entries|, page), radius, mode,
                     PageLoop(entries, d.store, page, index + 1, radius, mode).store);
    }
  }

  /** Skipping an item of another page changes nothing about the lists still to be left. */
  lemma SkipKeepsLists(entries: seq<Entry>, store: Store, page: nat, index: nat, mode: Closing, after: Store)
    requires Allocated(entries, store) && index < |entries| && index / PerPage != page
    requires LeavesLists(entries, store, Lo(index + 1, page), Hi(|entries|, page), mode, after)
    ensures LeavesLists(entries, store, Lo(index, page), Hi(|entries|, page), mode, after)
  {
    if index < PerPage * page {
      assert Lo(index, page) == Lo(index + 1, page);
    } else {
      assert Hi(|entries|, page) <= Lo(index, page) && Hi(|entries|, page) <= Lo(index + 1, page);
    }
  }

  /** Drawing item `index`, then leaving the lists from `index + 1` on, leaves them from `index` on. */
  lemma DrawKeepsLists(entries: seq<Entry>, store: Store, index: nat, hi: nat, radius: real, mode: Closing, after: Store)
    requires Allocated(entries, store) && index < hi <= |entries|
    requires mode == OnCopy || Unshared(entries)
    requires var d := DrawCell(entries, store, index, radius, mode).store;
      Allocated(entries, d) && LeavesLists(entries, d, index + 1, hi, mode, after)
    ensures LeavesLists(entries, store, index, hi, mode, after)
  {
    var d := DrawCell(entries, store, index, radius, mode).store;
    DrawCellKeepsOthers(entries, store, index, radius, mode);
    forall j | 0 <= j < |entries|
      ensures after[entries[j].levels] ==
        if index <= j < hi && Chartable(Resolve(entries, store)[j].1) then LeftBehind(store[entries[j].levels], mode)
        else store[entries[j].levels]
    {
      if j != index {
        assert Resolve(entries, d)[j] == Resolve(entries, store)[j];
      }
    }
  }

  /** A page pass touches no list outside the items of the page it has still to draw. */
  lemma {:induction false} PageLoopFrames(entries: seq<Entry>, store: Store, page: nat, index: nat, radius: real, mode: Closing, x: Ref)
    requires Allocated(entries, store) && index <= |entries|
    requires x in store && forall j :: Lo(index, page) <= j < Hi(|entries|, page) ==> entries[j].levels != x
    ensures PageLoop(entries, store, page, index, radius, mode).store[x] == store[x]
    decreases |entries| - index
  {
    if index == |entries| {
    } else if index / PerPage != page {
      PageLoopFrames(entries, store, page, index + 1, radius, mode, x);
    } else {
      var d := DrawCell(entries, store, index, radius, mode);
      assert entries[index].levels != x;
      PageLoopFrames(entries, d.store, page, index + 1, radius, mode, x);
    }
  }

  /** The page pass from the first item draws exactly the page `ExportPdf` lays out. */
  lemma PageLoopIsPage(entries: seq<Entry>, store: Store, page: nat, radius: real, mode: Closing)
    requires Allocated(entries, store) && page < PageCount(|entries|)
    requires mode == OnCopy || Unshared(entries)
    ensures PageLoop(entries, store, page, 0, radius, mode).panels == ExportPdf(Resolve(entries, store), radius)[page]
  {
    var res := Resolve(entries, store);
    var r := PageLoop(entries, store, page, 0, radius, mode);
    PageLoopPanels(entries, store, page, 0, radius, mode);
    assert DrawsPage(entries, store, page, 0, radius, r.panels);
    assert |r.panels| == OnPage(|entries|, page);
    assert ExportPdf(res, radius)[page] == PagePanels(res, |entries|, page, radius);
  }

  /** Two record lists that agree from some item before page `q` on lay out page `q` alike. */
  lemma PageAgrees(a: seq<(string, WorkerData)>, b: seq<(string, WorkerData)>, q: nat, from: nat, radius: real)
    requires |a| == |b| && q < PageCount(|a|) && from <= PerPage * q
    requires forall j :: from <= j < |a| ==> a[j] == b[j]
    ensures ExportPdf(a, radius)[q] == ExportPdf(b, radius)[q]
  {
    assert ExportPdf(a, radius)[q] == PagePanels(a, |a|, q, radius);
    assert ExportPdf(b, radius)[q] == PagePanels(b, |b|, q, radius);
  }

  /** After page `page`'s pass, the items of later pages still hold their own lists. */
  lemma LaterItemsKept(entries: seq<Entry>, store: Store, page: nat, radius: real, mode: Closing)
    requires Allocated(entries, store) && (mode == OnCopy || Unshared(entries))
    ensures var after := PageLoop(entries, store, page, 0, radius, mode).store;
      forall j :: PerPage * (page + 1) <= j < |entries| ==> Resolve(entries, after)[j] == Resolve(entries, store)[j]
  {
    PageLoopLists(entries, store, page, 0, radius, mode);
  }

  /** `pages` are `ExportPdf`'s pages of `records` from page `page` on. */
  predicate PagesFrom(records: seq<(string, WorkerData)>, page: nat, radius: real, pages: seq<seq<Panel>>) {
    && page + |pages| == PageCount(|records|)
    && forall q :: 0 <= q < |pages| ==> pages[q] == ExportPdf(records, radius)[page + q]
  }

  /** Page `page` of `b`, then the later pages of records that agree with `b` on them, are `b`'s pages from `page` on. */
  lemma PagesExtend(a: seq<(string, WorkerData)>, b: seq<(string, WorkerData)>, page: nat, radius: real, first: seq<Panel>, rest: seq<seq<Panel>>)
    requires |a| == |b| && page < PageCount(|b|)
    requires first == ExportPdf(b, radius)[page]
    requires forall j :: PerPage * (page + 1) <= j < |b| ==> a[j] == b[j]
    requires PagesFrom(a, page + 1, radius, rest)
    ensures PagesFrom(b, page, radius, [first] + rest)
  {
    forall q | 0 <= q < |rest|
      ensures rest[q] == ExportPdf(b, radius)[page + 1 + q]
    {
      PageAgrees(a, b, page + 1 + q, PerPage * (page + 1), radius);
    }
  }

  /** The pages loop from `page` on draws `ExportPdf`'s pages from `page` on. */
  lemma {:induction false} PagesLoopPages(entries: seq<Entry>, store: Store, page: nat, radius: real, mode: Closing)
    requires Allocated(entries, store) && page <= PageCount(|entries|)
    requires mode == OnCopy || Unshared(entries)
    ensures PagesFrom(Resolve(entries, store), page, radius, PagesLoop(entries, store, page, radius, mode).pages)
    decreases PageCount(|entries|) - page
  {
    if page < PageCount(|entries|) {
      var p := PageLoop(entries, store, page, 0, radius, mode);
      PageLoopIsPage(entries, store, page, radius, mode);
      PagesLoopPages(entries, p.store, page + 1, radius, mode);
      LaterItemsKept(entries, store, page, radius, mode);
      PagesExtend(Resolve(entries, p.store), Resolve(entries, store), page, radius, p.panels,
                  PagesLoop(entries, p.store, page + 1, radius, mode).pages);
    }
  }

  /**
   * After the pages loop from `page` on, each item from page `page` on that
   * passes the skip rule holds the list the chart left, and every other item
   * its own list, given the copy or unshared lists.
   */
  lemma {:induction false} PagesLoopLists(entries: seq<Entry>, store: Store, page: nat, radius: real, mode: Closing)
    requires Allocated(entries, store) && page <= PageCount(|entries|)
    requires mode == OnCopy || Unshared(entries)
    ensures var r := PagesLoop(entries, store, page, radius, mode);
      forall j :: 0 <= j < |entries| ==>
        r.store[entries[j].levels] ==
          if PerPage * page <= j && Chartable(Resolve(entries, store)[j].1)
          then LeftBehind(store[entries[j].levels], mode)
          else store[entries[j].levels]
    decreases PageCount(|entries|) - page
  {
    if page < PageCount(|entries|) {
      var p := PageLoop(entries, store, page, 0, radius, mode);
      PageLoopLists(entries, store, page, 0, radius, mode);
      LaterItemsKept(entries, store, page, radius, mode);
      PagesLoopLists(entries, p.store, page + 1, radius, mode);
    }
  }

  /** The pages loop from `page` on touches no list outside the items it has still to draw. */
  lemma {:induction false} PagesLoopFrames(entries: seq<Entry>, store: Store, page: nat, radius: real, mode: Closing, x: Ref)
    requires Allocated(entries, store) && page <= PageCount(|entries|)
    requires x in store && forall j :: PerPage * page <= j < |entries| ==> entries[j].levels != x
    ensures PagesLoop(entries, store, page, radius, mode).store[x] == store[x]
    decreases PageCount(|entries|) - page
  {
    if page < PageCount(|entries|) {
      var p := PageLoop(entries, store, page, 0, radius, mode);
      PageLoopFrames(entries, store, page, 0, radius, mode, x);
      PagesLoopFrames(entries, p.store, page + 1, radius, mode, x);
    }
  }

  /**
   * With the polygon closed on a copy, the export draws exactly the pages
   * `ExportPdf` lays out for the records as they stand, and it leaves every
   * list as it was, whether or not items share lists.
   */
  lemma ExportFixedDrawsExportPdf(entries: seq<Entry>, store: Store, radius: real)
    requires Allocated(entries, store)
    ensures ExportPdfFixed(entries, store, radius) == PdfRun(ExportPdf(Resolve(entries, store), radius), store)
  {
    var run := ExportPdfFixed(entries, store, radius);
    PagesLoopPages(entries, store, 0, radius, OnCopy);
    assert run.pages == ExportPdf(Resolve(entries, store), radius);
  }

  /** With the polygon closed on a copy, a second export draws exactly what the first did. */
  lemma ReexportRepeats(entries: seq<Entry>, store: Store, radius: real)
    requires Allocated(entries, store)
    ensures var once := ExportPdfFixed(entries, store, radius);
      ExportPdfFixed(entries, once.store, radius) == once
  {
    ExportFixedDrawsExportPdf(entries, store, radius);
  }

  /**
   * The export as written, when no two items share a list: it draws the same
   * pages, but each charted worker's list comes back closed, one level longer
   * than before and ending with its first level; every other list is untouched.
   */
  lemma ExportAsWrittenCloses(entries: seq<Entry>, store: Store, radius: real)
    requires Allocated(entries, store) && Unshared(entries)
    ensures var run := ExportPdfAsWritten(entries, store, radius);
      && run.pages == ExportPdf(Resolve(entries, store), radius)
      && (forall j :: 0 <= j < |entries| ==>
            run.store[entries[j].levels] ==
              if Chartable(Resolve(entries, store)[j].1) then Closure(store[entries[j].levels])
              else store[entries[j].levels])
      && (forall x :: x in store && (forall j :: 0 <= j < |entries| ==> entries[j].levels != x) ==> run.store[x] == store[x])
  {
    var run := ExportPdfAsWritten(entries, store, radius);
    PagesLoopPages(entries, store, 0, radius, InPlace);
    assert run.pages == ExportPdf(Resolve(entries, store), radius);
    PagesLoopLists(entries, store, 0, radius, InPlace);
    forall x | x in store && (forall j :: 0 <= j < |entries| ==> entries[j].levels != x)
      ensures run.store[x] == store[x]
    {
      PagesLoopFrames(entries, store, 0, radius, InPlace, x);
    }
  }

  /** Exporting the same records a second time draws no chart at all. */
  lemma ReexportLosesCharts(entries: seq<Entry>, store: Store, radius: real, i: nat)
    requires Allocated(entries, store) && Unshared(entries) && i < |entries|
    ensures var once := ExportPdfAsWritten(entries, store, radius);
      var twice := ExportPdfAsWritten(entries, once.store, radius);
      i / PerPage < |twice.pages| && i % PerPage < |twice.pages[i / PerPage]|
      && twice.pages[i / PerPage][i % PerPage].chart == None
  {
    var once := ExportPdfAsWritten(entries, store, radius);
    ExportAsWrittenCloses(entries, store, radius);
    ExportAsWrittenCloses(entries, once.store, radius);
    EveryWorkerPlaced(Resolve(entries, once.store), radius, i);
  }

  /** One worker with one category: charted the first time, frame only the second. */
  lemma ReexportExample()
    ensures var entries := [Entry("A", "A", ["x"], 0)];
      var once := ExportPdfAsWritten(entries, map[0 := [3]], 1.0);
      && once.pages[0][0].chart.Some?
      && once.store == map[0 := [3, 3]]
      && ExportPdfAsWritten(entries, once.store, 1.0).pages[0][0].chart.None?
  {
    var entries := [Entry("A", "A", ["x"], 0)];
    var store := map[0 := [3]];
    var once := ExportPdfAsWritten(entries, store, 1.0);
    ExportAsWrittenCloses(entries, store, 1.0);
    assert Chartable(Resolve(entries, store)[0].1);
    assert once.store[0] == Closure([3]) == [3, 3];
    assert once.store == map[0 := [3, 3]];
    EveryWorkerPlaced(Resolve(entries, store), 1.0, 0);
    ReexportLosesCharts(entries, store, 1.0, 0);
  }

  /**
   * Two items holding one list: the first is charted and its chart closes the
   * shared list, so the second, though it passes the skip rule on the records
   * as they stood, is drawn without a chart in the same export. The export on
   * a copy charts both.
   */
  lemma SharedListSkipped()
    ensures var entries := [Entry("A", "A", ["x"], 0), Entry("B", "B", ["x"], 0)];
      var store := map[0 := [3]];
      && Chartable(Resolve(entries, store)[1].1)
      && ExportPdfAsWritten(entries, store, 1.0).pages[0][1].chart.None?
      && ExportPdfFixed(entries, store, 1.0).pages[0][1].chart.Some?
  {
    var entries := [Entry("A", "A", ["x"], 0), Entry("B", "B", ["x"], 0)];
    var store := map[0 := [3]];
    var d0 := DrawCell(entries, store, 0, 1.0, InPlace);
    assert Chartable(Resolve(entries, store)[0].1);
    assert d0.store[0] == Closure([3]) == [3, 3];
    assert d0.store == map[0 := [3, 3]];
    var d1 := DrawCell(entries, d0.store, 1, 1.0, InPlace);
    assert d1.panel.chart.None?;
    assert PageLoop(entries, d1.store, 0, 2, 1.0, InPlace).panels == [];
    assert PageLoop(entries, d0.store, 0, 1, 1.0, InPlace).panels == [d1.panel];
    assert PageLoop(entries, store, 0, 0, 1.0, InPlace).panels == [d0.panel, d1.panel];
    assert PageCount(2) == 1;
    ExportFixedDrawsExportPdf(entries, store, 1.0);
    EveryWorkerPlaced(Resolve(entries, store), 1.0, 1);
  }
}

=== FILE: pytext.dfy ===
/**
 * The handful of Python `str` operations the application relies on:
 * `strip`, `split` on one character, `join`, `replace` and the `in`
 * substring test. Strings are sequences of code points.
 */
module PyText {

  /** Python's `str.isspace()` on a single code point. */
  predicate IsSpace(c: char) {
    || c == ' ' || c == '\t' || c == '\n' || c == '\r' || c == '\U{000B}' || c == '\U{000C}'
    || ('\U{001C}' <= c <= '\U{001F}')
    || c == '\U{0085}' || c == '\U{00A0}' || c == '\U{1680}'
    || ('\U{2000}' <= c <= '\U{200A}')
    || c == '\U{2028}' || c == '\U{2029}' || c == '\U{202F}' || c == '\U{205F}' || c == '\U{3000}'
  }

  function TrimLeft(s: string): (r: string)
    ensures |r| <= |s| && r == s[|s| - |r|..]
    ensures |r| > 0 ==> !IsSpace(r[0])
    ensures forall i :: 0 <= i < |s| - |r| ==> IsSpace(s[i])
  {
    if |s| > 0 && IsSpace(s[0]) then TrimLeft(s[1..]) else s
  }

  function TrimRight(s: string): (r: string)
    ensures |r| <= |s| && r == s[..|r|]
    ensures |r| > 0 ==> !IsSpace(r[|r| - 1])
    ensures forall i :: |r| <= i < |s| ==> IsSpace(s[i])
  {
    if |s| > 0 && IsSpace(s[|s| - 1]) then TrimRight(s[..|s| - 1]) else s
  }

  /** `r` is the run of `s` starting at `a`, with only white space around it. */
  predicate StrippedAt(s: string, a: int, r: string) {
    && 0 <= a <= |s| - |r| && r == s[a..a + |r|]
    && (forall i :: 0 <= i < a ==> IsSpace(s[i]))
    && (forall i :: a + |r| <= i < |s| ==> IsSpace(s[i]))
  }

  /**
   * Python's `s.strip()`: the longest middle run of `s` that neither starts nor
   * ends with white space; everything cut away is white space.
   */
  function Strip(s: string): (r: string)
    ensures exists a :: StrippedAt(s, a, r)
    ensures |r| > 0 ==> !IsSpace(r[0]) && !IsSpace(r[|r| - 1])
  {
    var t := TrimLeft(s);
    var r := TrimRight(t);
    var a := |s| - |t|;
    assert StrippedAt(s, a, r);
    r
  }

  /** The string has no white space at all. */
  predicate NoSpace(s: string) {
    forall i :: 0 <= i < |s| ==> !IsSpace(s[i])
  }

  lemma StripNoSpace(s: string)
    requires NoSpace(s)
    ensures Strip(s) == s
  {
  }

  /** Python's `s.split(c)` for a one-character separator: never empty, `"".split(c) == [""]`. */
  function Split(s: string, c: char): (r: seq<string>)
    ensures |r| >= 1
    ensures forall k :: 0 <= k < |r| ==> c !in r[k]
  {
    if |s| == 0 then [""]
    else if s[0] == c then [""] + Split(s[1..], c)
    else
      var rest := Split(s[1..], c);
      [[s[0]] + rest[0]] + rest[1..]
  }

  /** Python's `c.join(ps)` for a one-character separator. */
  function Join(ps: seq<string>, c: char): string
  {
    if |ps| == 0 then ""
    else if |ps| == 1 then ps[0]
    else ps[0] + [c] + Join(ps[1..], c)
  }

  lemma {:induction false} SplitNoSep(s: string, c: char)
    requires c !in s
    ensures Split(s, c) == [s]
  {
    if |s| > 0 {
      assert s[0] != c && c !in s[1..];
      SplitNoSep(s[1..], c);
      assert [s[0]] + s[1..] == s;
    }
  }

  lemma {:induction false} SplitPiece(p: string, c: char, rest: string)
    requires c !in p
    ensures Split(p + [c] + rest, c) == [p] + Split(rest, c)
  {
    if |p| == 0 {
      assert p + [c] + rest == [c] + rest;
      assert ([c] + rest)[1..] == rest;
    } else {
      assert (p + [c] + rest)[1..] == p[1..] + [c] + rest;
      SplitPiece(p[1..], c, rest);
      assert [p[0]] + p[1..] == p;
    }
  }

  /**
   * The shape of a join: empty for no pieces, otherwise it starts with the
   * first piece, ends with the last, and holds the separator between two or more.
   */
  lemma {:induction false} JoinShape(ps: seq<string>, c: char)
    ensures |ps| == 0 ==> Join(ps, c) == ""
    ensures |ps| > 0 ==> ps[0] <= Join(ps, c)
    ensures |ps| > 0 ==> EndsWith(Join(ps, c), ps[|ps| - 1])
    ensures |ps| >= 2 ==> c in Join(ps, c)
  {
    if |ps| >= 2 {
      var rest := Join(ps[1..], c);
      JoinShape(ps[1..], c);
      JoinStep(ps[0], c, rest, ps[|ps| - 1]);
    }
  }

  predicate EndsWith(s: string, suffix: string) {
    |suffix| <= |s| && s[|s| - |suffix|..] == suffix
  }

  /** One step of a join: a piece and the separator put in front of the rest. */
  lemma JoinStep(head: string, c: char, rest: string, last: string)
    requires EndsWith(rest, last)
    ensures head <= head + [c] + rest
    ensures EndsWith(head + [c] + rest, last)
    ensures c in head + [c] + rest
  {
    var j := head + [c] + rest;
    assert j[|head|] == c;
    assert j[|j| - |last|..] == rest[|rest| - |last|..];
  }

  /** Splitting a join of separator-free pieces gives the pieces back. */
  lemma {:induction false} SplitJoin(ps: seq<string>, c: char)
    requires |ps| >= 1
    requires forall k :: 0 <= k < |ps| ==> c !in ps[k]
    ensures Split(Join(ps, c), c) == ps
  {
    if |ps| == 1 {
      SplitNoSep(ps[0], c);
    } else {
      SplitJoin(ps[1..], c);
      SplitPiece(ps[0], c, Join(ps[1..], c));
      assert [ps[0]] + ps[1..] == ps;
    }
  }

  /** Python's `s.replace(c, "")` for a single character. */
  function RemoveChar(s: string, c: char): (r: string)
    ensures c !in r
    ensures c !in s ==> r == s
  {
    if |s| == 0 then ""
    else if s[0] == c then RemoveChar(s[1..], c)
    else [s[0]] + RemoveChar(s[1..], c)
  }

  lemma {:induction false} RemoveCharAppend(a: string, b: string, c: char)
    ensures RemoveChar(a + b, c) == RemoveChar(a, c) + RemoveChar(b, c)
  {
    if |a| > 0 {
      assert (a + b)[1..] == a[1..] + b;
      RemoveCharAppend(a[1..], b, c);
    } else {
      assert a + b == b;
    }
  }

  /** `p` occurs in `s` at position `i`. */
  predicate OccursAt(s: string, p: string, i: nat) {
    i + |p| <= |s| && s[i..i + |p|] == p
  }

  /** Python's `p in s` for strings. */
  predicate Contains(s: string, p: string) {
    exists i: nat :: i <= |s| && OccursAt(s, p, i)
  }

  /** Python's `s.replace(p, q)`: non-overlapping occurrences, left to right. */
  function Replace(s: string, p: string, q: string): (r: string)
    requires |p| > 0
    ensures |s| == 0 ==> r == ""
    ensures |p| == |q| ==> |r| == |s|
    ensures forall x :: x in r ==> x in s || x in q
    decreases |s|
  {
    if |s| == 0 then ""
    else if |p| <= |s| && s[..|p|] == p then q + Replace(s[|p|..], p, q)
    else [s[0]] + Replace(s[1..], p, q)
  }

  /**
   * The scan replaces the first occurrence and resumes after it: when `p`
   * first occurs in `a + p + b` at `|a|`, the text before it is kept, the
   * occurrence becomes `q`, and the rest is replaced in turn.
   */
  lemma {:induction false} ReplaceAt(a: string, p: string, q: string, b: string)
    requires |p| > 0
    requires !Contains(a + p[..|p| - 1], p)
    ensures Replace(a + p + b, p, q) == a + q + Replace(b, p, q)
    decreases |a|
  {
    var s := a + p + b;
    if |a| == 0 {
      assert s == p + b;
      assert s[..|p|] == p && s[|p|..] == b;
    } else {
      NoOccurrenceAtStart(a, p, b);
      TailAbsent(a, p);
      assert s[0] == a[0] && s[1..] == a[1..] + p + b;
      assert Replace(s, p, q) == [a[0]] + Replace(a[1..] + p + b, p, q);
      ReplaceAt(a[1..], p, q, b);
      assert a + q + Replace(b, p, q) == [a[0]] + (a[1..] + q + Replace(b, p, q));
    }
  }

  /** Before its first occurrence at `|a| > 0`, the pattern does not start the text. */
  lemma NoOccurrenceAtStart(a: string, p: string, b: string)
    requires |a| > 0 && |p| > 0
    requires !Contains(a + p[..|p| - 1], p)
    ensures !(|p| <= |a + p + b| && (a + p + b)[..|p|] == p)
  {
    var h := a + p[..|p| - 1];
    assert |p| <= |h|;
    assert (a + p + b)[..|p|] == h[0..0 + |p|];
    assert !OccursAt(h, p, 0);
  }

  /** Dropping the first character keeps a text free of the pattern. */
  lemma TailAbsent(a: string, p: string)
    requires |a| > 0 && |p| > 0
    requires !Contains(a + p[..|p| - 1], p)
    ensures !Contains(a[1..] + p[..|p| - 1], p)
  {
    var h := a + p[..|p| - 1];
    var t := a[1..] + p[..|p| - 1];
    assert t == h[1..];
    forall i: nat | OccursAt(t, p, i)
      ensures false
    {
      assert t[i..i + |p|] == h[i + 1..i + 1 + |p|];
      assert OccursAt(h, p, i + 1);
    }
  }

  /** A pattern whose first character is missing from the text does not occur in it. */
  lemma HeadAbsent(s: string, p: string)
    requires |p| > 0 && p[0] !in s
    ensures !Contains(s, p)
  {
    forall i: nat | OccursAt(s, p, i)
      ensures false
    {
    }
  }

  /** Replacing the whole text, when it is the pattern, gives the replacement. */
  lemma ReplaceWhole(p: string, q: string)
    requires |p| > 0
    ensures Replace(p, p, q) == q
  {
    assert p[..|p|] == p;
    assert p[|p|..] == "";
  }

  /** Without an occurrence of the pattern, replacing changes nothing. */
  lemma {:induction false} ReplaceAbsent(s: string, p: string, q: string)
    requires |p| > 0
    requires !Contains(s, p)
    ensures Replace(s, p, q) == s
    decreases |s|
  {
    if |s| > 0 {
      assert !OccursAt(s, p, 0);
      forall i: nat | OccursAt(s[1..], p, i)
        ensures false
      {
        assert s[1..][i..i + |p|] == s[i + 1..i + 1 + |p|];
        assert OccursAt(s, p, i + 1);
      }
      ReplaceAbsent(s[1..], p, q);
    }
  }

  /** A newline already present survives a replacement whose pattern has none. */
  lemma {:induction false} ReplaceKeepsNewline(s: string, p: string, q: string)
    requires |p| > 0 && '\n' !in p
    requires '\n' in s
    ensures '\n' in Replace(s, p, q)
    decreases |s|
  {
    var k :| 0 <= k < |s| && s[k] == '\n';
    if |p| <= |s| && s[..|p|] == p {
      assert forall j :: 0 <= j < |p| ==> s[j] == p[j] && s[j] != '\n';
      assert k >= |p|;
      assert s[|p|..][k - |p|] == '\n';
      ReplaceKeepsNewline(s[|p|..], p, q);
    } else if k > 0 {
      assert s[1..][k - 1] == '\n';
      ReplaceKeepsNewline(s[1..], p, q);
    }
  }

  /** An occurrence of the pattern, replaced by text holding a newline, leaves a newline. */
  lemma {:induction false} ReplaceIntroducesNewline(s: string, p: string, q: string)
    requires |p| > 0 && '\n' in q
    requires Contains(s, p)
    ensures '\n' in Replace(s, p, q)
    decreases |s|
  {
    var i: nat :| i <= |s| && OccursAt(s, p, i);
    assert i + |p| <= |s| && s[i..i + |p|] == p;
    if |p| <= |s| && s[..|p|] == p {
      var k :| 0 <= k < |q| && q[k] == '\n';
      assert (q + Replace(s[|p|..], p, q))[k] == '\n';
    } else {
      assert i != 0;
      assert s[1..][i - 1..i - 1 + |p|] == s[i..i + |p|];
      assert OccursAt(s[1..], p, i - 1);
      ReplaceIntroducesNewline(s[1..], p, q);
      var k :| 0 <= k < |Replace(s[1..], p, q)| && Replace(s[1..], p, q)[k] == '\n';
      assert ([s[0]] + Replace(s[1..], p, q))[k + 1] == '\n';
    }
  }

  /** A string holding the separator splits into at least two pieces. */
  lemma {:induction false} SplitAtSeparator(s: string, c: char)
    requires c in s
    ensures |Split(s, c)| >= 2
  {
    if s[0] != c {
      var k :| 0 <= k < |s| && s[k] == c;
      assert s[1..][k - 1] == c;
      SplitAtSeparator(s[1..], c);
    }
  }
}

=== FILE: taxonomy.dfy ===
/**
 * The category taxonomy of the main window: an ordered mapping from a parent
 * group (one editing tab each) to its ordered categories. Its flattening, in
 * declaration order, fixes which position of a skill vector belongs to which
 * category.
 */
module Taxonomy {
  import Vectors

  datatype Group = Group(name: string, categories: seq<string>)

  /** Group names are dictionary keys, hence distinct. */
  predicate WellFormed(gs: seq<Group>) {
    forall i, j :: 0 <= i < j < |gs| ==> gs[i].name != gs[j].name
  }

  /** The `self.categories` dictionary, in declaration order. */
  const Groups: seq<Group> := [
    Group("インダクション", ["アンローダー", "エブリラベラー", "オートラベラー", "プッシャー", "ウォータースパイダー", "フィンガー"]),
    Group("レーンソート", ["ストー", "バッファー", "下流管理"]),
    Group("ピック＆ステージ", ["ピック", "切り離し", "TDR"]),
    Group("その他", ["FC返送", "リパック", "誘導"])
  ]

  /** The titles of the tabs that follow the group tabs, in order. */
  const OverallTitle: string := "総合評価"
  const ReportTitle: string := "データ管理・レポート"
  const AnalysisTitle: string := "データ分析"

  /** Every category of every group, group by group. */
  function Flatten(gs: seq<Group>): (r: seq<string>)
    ensures forall c :: c in r <==> exists i :: 0 <= i < |gs| && c in gs[i].categories
  {
    assert forall i :: 1 <= i < |gs| ==> gs[i] == gs[1..][i - 1];
    if |gs| == 0 then [] else gs[0].categories + Flatten(gs[1..])
  }

  lemma {:induction false} FlattenSplit(gs: seq<Group>, i: nat)
    requires i < |gs|
    ensures Flatten(gs) == Flatten(gs[..i]) + gs[i].categories + Flatten(gs[i + 1..])
  {
    if i > 0 {
      FlattenSplit(gs[1..], i - 1);
      assert gs[1..][..i - 1] == gs[1..i];
      assert gs[1..][i - 1] == gs[i];
      assert gs[1..][i..] == gs[i + 1..];
      assert gs[..i][1..] == gs[1..i];
    } else {
      assert gs[..0] == [];
    }
  }

  lemma GroupsFacts()
    ensures WellFormed(Groups)
    ensures |Flatten(Groups)| == 15
  {
    assert Groups[1..][1..][1..][1..] == [];
  }

  /**
   * `get_categories_from_db`: the flattened taxonomy. The stored workers are
   * read, and a count derived from the first one, but neither affects the result.
   */
  function CategoriesFromDb(storedVectors: seq<seq<int>>): (r: seq<string>)
    ensures |r| == 15
    ensures forall i :: 0 <= i < |Groups| ==>
      r == Flatten(Groups[..i]) + Groups[i].categories + Flatten(Groups[i + 1..])
  {
    GroupsFacts();
    forall i | 0 <= i < |Groups|
      ensures Flatten(Groups) == Flatten(Groups[..i]) + Groups[i].categories + Flatten(Groups[i + 1..])
    {
      FlattenSplit(Groups, i);
    }
    Flatten(Groups)
  }

  /** Titles of all tabs of the tab widget, in order. */
  function TabTitles(gs: seq<Group>): (r: seq<string>)
    ensures |r| == |gs| + 3
    ensures forall i :: 0 <= i < |gs| ==> r[i] == gs[i].name
    ensures r[|gs|..] == [OverallTitle, ReportTitle, AnalysisTitle]
  {
    seq(|gs|, i requires 0 <= i < |gs| => gs[i].name) + [OverallTitle, ReportTitle, AnalysisTitle]
  }

  /**
   * Looking a tab's title up in `self.categories` gives, for each group tab,
   * that group's categories, and for the overall, report and analysis tabs
   * nothing: none of their titles names a group.
   */
  lemma TitlesLookUp()
    ensures forall i :: 0 <= i < |Groups| ==> Lookup(Groups, TabTitles(Groups)[i]) == Groups[i].categories
    ensures forall i :: |Groups| <= i < |TabTitles(Groups)| ==> Lookup(Groups, TabTitles(Groups)[i]) == []
  {
    GroupsFacts();
    var titles := TabTitles(Groups);
    forall i | |Groups| <= i < |titles|
      ensures forall g :: 0 <= g < |Groups| ==> Groups[g].name != titles[i]
    {
      assert titles[i] in [OverallTitle, ReportTitle, AnalysisTitle] by {
        assert titles[i] == titles[|Groups|..][i - |Groups|];
      }
    }
  }

  /** `tabText(index)`: the empty string for an index with no tab. */
  function TabText(gs: seq<Group>, tabIndex: int): (r: string)
    ensures 0 <= tabIndex < |gs| ==> r == gs[tabIndex].name
    ensures tabIndex == |gs| ==> r == OverallTitle
    ensures tabIndex == |gs| + 1 ==> r == ReportTitle
    ensures tabIndex == |gs| + 2 ==> r == AnalysisTitle
    ensures tabIndex < 0 || tabIndex > |gs| + 2 ==> r == ""
  {
    var titles := TabTitles(gs);
    if 0 <= tabIndex < |titles| then titles[tabIndex] else ""
  }

  /** `self.categories.get(title, [])`. */
  function Lookup(gs: seq<Group>, title: string): (r: seq<string>)
    ensures (forall i :: 0 <= i < |gs| ==> gs[i].name != title) ==> r == []
    ensures WellFormed(gs) ==> forall i :: 0 <= i < |gs| && gs[i].name == title ==> r == gs[i].categories
  {
    if |gs| == 0 then []
    else if gs[0].name == title then gs[0].categories
    else Lookup(gs[1..], title)
  }

  /**
   * `get_categories_for_tab`: the categories of a group tab; nothing for the
   * tabs after the groups, nor when the flattened taxonomy is empty.
   */
  function CategoriesForTab(gs: seq<Group>, flattened: seq<string>, tabIndex: int): (r: seq<string>)
    ensures WellFormed(gs) && |flattened| > 0 && 0 <= tabIndex < |gs| ==> r == gs[tabIndex].categories
    ensures tabIndex >= |gs| ==> r == []
    ensures |flattened| == 0 ==> r == []
  {
    if |flattened| == 0 then []
    else if tabIndex >= |gs| then []
    else Lookup(gs, TabText(gs, tabIndex))
  }

  /**
   * The `(start_index, tab_index_from_main)` pair of the tab-slice loop:
   * walk the groups adding up their sizes until the one titled `title`.
   * A title that names no group leaves both at 0.
   */
  function Bounds(gs: seq<Group>, title: string, count: nat): (r: (nat, nat))
    ensures r.0 <= r.1
    ensures (forall i :: 0 <= i < |gs| ==> gs[i].name != title) ==> r == (0, 0)
    ensures r != (0, 0) ==> count <= r.0
  {
    if |gs| == 0 then (0, 0)
    else if gs[0].name == title then (count, count + |gs[0].categories|)
    else Bounds(gs[1..], title, count + |gs[0].categories|)
  }

  /** The slice of group `i` starts after all earlier groups' categories and spans its own. */
  lemma {:induction false} BoundsOfGroup(gs: seq<Group>, i: nat, count: nat)
    requires WellFormed(gs) && i < |gs|
    ensures Bounds(gs, gs[i].name, count) ==
      (count + |Flatten(gs[..i])|, count + |Flatten(gs[..i])| + |gs[i].categories|)
  {
    if i > 0 {
      assert gs[0].name != gs[i].name;
      assert WellFormed(gs[1..]);
      assert gs[1..][i - 1] == gs[i];
      BoundsOfGroup(gs[1..], i - 1, count + |gs[0].categories|);
      var pre := gs[..i];
      assert pre[0] == gs[0] && pre[1..] == gs[1..][..i - 1];
      assert Flatten(pre) == gs[0].categories + Flatten(gs[1..][..i - 1]);
    } else {
      assert gs[..0] == [];
    }
  }

  lemma {:induction false} BoundsAbsent(gs: seq<Group>, title: string, count: nat)
    requires forall i :: 0 <= i < |gs| ==> gs[i].name != title
    ensures Bounds(gs, title, count) == (0, 0)
  {
    if |gs| > 0 {
      BoundsAbsent(gs[1..], title, count + |gs[0].categories|);
    }
  }

  /**
   * The chart data of a tab for a worker's stored vector: the tab's slice of
   * the vector fitted to the tab's category count.
   */
  function TabSlice(gs: seq<Group>, flattened: seq<string>, levels: seq<int>, tabIndex: int): (r: seq<int>)
    ensures |r| == |CategoriesForTab(gs, flattened, tabIndex)|
    ensures forall j :: 0 <= j < |r| ==> r[j] == 1 || r[j] in levels
  {
    var categories := CategoriesForTab(gs, flattened, tabIndex);
    var (start, end) := Bounds(gs, TabText(gs, tabIndex), 0);
    var slice := Vectors.PySlice(levels, start, end);
    Vectors.Fit(slice, |categories|)
  }

  /** Group `i` occupies positions `start .. start + size` of the flattened taxonomy. */
  lemma GroupPosition(gs: seq<Group>, i: nat)
    requires i < |gs|
    ensures |Flatten(gs[..i])| + |gs[i].categories| <= |Flatten(gs)|
    ensures forall j :: 0 <= j < |gs[i].categories| ==>
      Flatten(gs)[|Flatten(gs[..i])| + j] == gs[i].categories[j]
  {
    FlattenSplit(gs, i);
  }

  /**
   * Entry `j` of group tab `i` is the level stored at position `start + j`,
   * the position `GroupPosition` gives that tab's `j`-th category, or 1 where
   * the stored vector is too short.
   */
  lemma TabSliceEntries(gs: seq<Group>, levels: seq<int>, i: nat)
    requires WellFormed(gs) && i < |gs|
    ensures |TabSlice(gs, Flatten(gs), levels, i)| == |gs[i].categories|
    ensures forall j :: 0 <= j < |gs[i].categories| ==>
      TabSlice(gs, Flatten(gs), levels, i)[j] ==
        if |Flatten(gs[..i])| + j < |levels| then levels[|Flatten(gs[..i])| + j] else 1
  {
    var start := |Flatten(gs[..i])|;
    var n := |gs[i].categories|;
    GroupPosition(gs, i);
    BoundsOfGroup(gs, i, 0);
    assert TabText(gs, i) == gs[i].name;
    if n > 0 {
      assert |Flatten(gs)| > 0;
      assert CategoriesForTab(gs, Flatten(gs), i) == gs[i].categories;
    } else {
      assert |CategoriesForTab(gs, Flatten(gs), i)| == 0;
    }
    var slice := Vectors.PySlice(levels, start, start + n);
    assert TabSlice(gs, Flatten(gs), levels, i) == Vectors.Fit(slice, n);
  }

  /** The tabs after the groups have no categories and so an empty chart. */
  lemma TabSliceOtherTabs(gs: seq<Group>, flattened: seq<string>, levels: seq<int>, tabIndex: int)
    requires tabIndex >= |gs|
    ensures TabSlice(gs, flattened, levels, tabIndex) == []
  {
  }
}

=== FILE: vectors.dfy ===
/**
 * Skill vectors and the one reconciliation rule the application applies
 * wherever a vector meets a category list: keep the first `n` levels and
 * pad with level 1, the lowest level, up to exactly `n`.
 */
module Vectors {

  /** `[1] * n` */
  function Ones(n: int): (r: seq<int>)
    ensures |r| == if n < 0 then 0 else n
    ensures forall j :: 0 <= j < |r| ==> r[j] == 1
  {
    if n <= 0 then [] else [1] + Ones(n - 1)
  }

  /** `xs[a:b]` for `0 <= a <= b`: Python clamps both bounds to the length. */
  function PySlice(xs: seq<int>, a: nat, b: nat): (r: seq<int>)
    requires a <= b
    ensures |r| == (if b <= |xs| then b else |xs|) - (if a <= |xs| then a else |xs|)
    ensures forall j :: 0 <= j < |r| ==> r[j] == xs[a + j]
  {
    var lo := if a <= |xs| then a else |xs|;
    var hi := if b <= |xs| then b else |xs|;
    xs[lo..hi]
  }

  /** `v = xs[:n]; v += [1] * (n - len(v))` */
  function Fit(xs: seq<int>, n: nat): (r: seq<int>)
    ensures |r| == n
    ensures forall j :: 0 <= j < n ==> r[j] == if j < |xs| then xs[j] else 1
  {
    var kept := if n <= |xs| then xs[..n] else xs;
    kept + Ones(n - |kept|)
  }

  /** A vector that already has the right length is left alone. */
  lemma FitExact(xs: seq<int>)
    ensures Fit(xs, |xs|) == xs
  {
  }

  /** Fitting twice to the same length is fitting once. */
  lemma FitIdempotent(xs: seq<int>, n: nat)
    ensures Fit(Fit(xs, n), n) == Fit(xs, n)
  {
  }

  /** Fitting to a shorter length keeps a prefix; fitting to a longer one pads. */
  lemma FitPrefix(xs: seq<int>, n: nat)
    ensures n <= |xs| ==> Fit(xs, n) == xs[..n]
    ensures n >= |xs| ==> Fit(xs, n)[..|xs|] == xs
  {
  }

  /** Levels in the range 1..5 stay in range after fitting. */
  lemma FitKeepsLevelRange(xs: seq<int>, n: nat)
    requires forall j :: 0 <= j < |xs| ==> 1 <= xs[j] <= 5
    ensures forall j :: 0 <= j < n ==> 1 <= Fit(xs, n)[j] <= 5
  {
  }

  lemma FitExamples()
    ensures Fit([5, 3], 5) == [5, 3, 1, 1, 1]
    ensures Fit([5, 3, 4, 2, 1, 9], 5) == [5, 3, 4, 2, 1]
  {
    assert Fit([5, 3], 5)[2] == 1;
  }
}

=== FILE: worker_records.dfy ===
/**
 * `WorkerData`, the record the exporters consume: a name, the categories the
 * levels are aligned with, and the levels themselves.
 */
module WorkerRecords {
  import opened Wrappers
  import Vectors

  datatype WorkerData = WorkerData(name: string, categories: seq<string>, skillLevels: seq<int>)

  /**
   * A dictionary with the keys `name` and `skill_levels`; `None` stands for a
   * `skill_levels` value of `None`.
   */
  datatype WorkerDict = WorkerDict(name: string, skillLevels: Option<seq<int>>)

  /**
   * `WorkerData(name, categories, skill_levels=None)`: without levels every
   * category starts at level 1; given levels are kept as they are, whatever
   * their length.
   */
  function New(name: string, categories: seq<string>, skillLevels: Option<seq<int>>): (w: WorkerData)
    ensures w.name == name && w.categories == categories
    ensures skillLevels.None? ==>
      |w.skillLevels| == |categories| && forall j :: 0 <= j < |categories| ==> w.skillLevels[j] == 1
    ensures skillLevels.Some? ==> w.skillLevels == skillLevels.value
  {
    match skillLevels {
      case None => WorkerData(name, categories, Vectors.Ones(|categories|))
      case Some(levels) => WorkerData(name, categories, levels)
    }
  }

  /** `to_dict`: the name and the levels; the categories are not part of the dictionary. */
  function ToDict(w: WorkerData): (d: WorkerDict)
    ensures d.name == w.name && d.skillLevels == Some(w.skillLevels)
  {
    WorkerDict(w.name, Some(w.skillLevels))
  }

  /**
   * `from_dict(data, categories)`: the categories come from the caller; stored
   * levels are taken as they are, and `None` gives level 1 for every category.
   */
  function FromDict(d: WorkerDict, categories: seq<string>): (w: WorkerData)
    ensures w.name == d.name && w.categories == categories
    ensures d.skillLevels.Some? ==> w.skillLevels == d.skillLevels.value
    ensures d.skillLevels.None? ==>
      |w.skillLevels| == |categories| && forall j :: 0 <= j < |categories| ==> w.skillLevels[j] == 1
  {
    New(d.name, categories, d.skillLevels)
  }

  /** A record rebuilt from its dictionary and its own categories is the record. */
  lemma DictRoundTrip(w: WorkerData)
    ensures FromDict(ToDict(w), w.categories) == w
  {
  }

  /** The dictionary loses the categories: records that differ only there share a dictionary. */
  lemma DictForgetsCategories(w: WorkerData, categories: seq<string>)
    ensures ToDict(w) == ToDict(w.(categories := categories))
    ensures FromDict(ToDict(w), categories) == w.(categories := categories)
  {
  }

  /** A dictionary without levels reads back as a default record. */
  lemma NoLevelsDefault(name: string, categories: seq<string>)
    ensures FromDict(WorkerDict(name, None), categories) == New(name, categories, None)
    ensures FromDict(WorkerDict(name, None), categories).skillLevels == Vectors.Fit([], |categories|)
  {
    DefaultLevelsFitted(name, categories);
  }

  /** A default record's levels are already fitted to its categories. */
  lemma DefaultLevelsFitted(name: string, categories: seq<string>)
    ensures New(name, categories, None).skillLevels == Vectors.Fit([], |categories|)
  {
  }
}

=== FILE: worker_table.dfy ===
/**
 * The `workers` table: an auto-incremented `id`, a `name` that is NOT NULL
 * and UNIQUE, and the levels as text. The model keeps the rows in insertion
 * order together with the AUTOINCREMENT counter, and gives the four statements
 * the application issues (INSERT, SELECT by name, UPDATE by name, DELETE by
 * name) the meaning SQLite gives them.
 */
module WorkerTable {
  import opened Wrappers
  import LevelsCodec

  type DbError = LevelsCodec.DbError

  /** One stored row; `skillLevels` is the column's text. */
  datatype Row = Row(id: nat, name: string, skillLevels: string)

  /** The table's rows and the highest id the AUTOINCREMENT counter has handed out. */
  datatype Table = Table(rows: seq<Row>, lastId: nat)

  /** A row as the application reads it: the levels decoded into a vector. */
  datatype Worker = Worker(id: nat, name: string, skillLevels: seq<int>)

  /** The table after a statement, and the exception it raised, if any. */
  datatype Write = Write(table: Table, error: Option<DbError>)

  /** What the schema and the writers guarantee of every reachable table. */
  predicate Valid(t: Table) {
    && (forall i, j :: 0 <= i < j < |t.rows| ==> t.rows[i].name != t.rows[j].name)
    && (forall i, j :: 0 <= i < j < |t.rows| ==> t.rows[i].id != t.rows[j].id)
    && (forall i :: 0 <= i < |t.rows| ==> 1 <= t.rows[i].id <= t.lastId)
    && (forall i :: 0 <= i < |t.rows| ==> LevelsCodec.Decode(t.rows[i].skillLevels).Ok?)
  }

  /** The table `create_table_if_not_exists` leaves on a fresh database. */
  function Empty(): (t: Table)
    ensures Valid(t) && |t.rows| == 0
  {
    Table([], 0)
  }

  predicate HasName(t: Table, name: string) {
    exists i :: 0 <= i < |t.rows| && t.rows[i].name == name
  }

  /** The position of the first row with this name, as `WHERE name=?` finds it. */
  function Find(rows: seq<Row>, name: string): (r: Option<nat>)
    ensures r.Some? ==> r.value < |rows| && rows[r.value].name == name
    ensures r.Some? ==> forall j :: 0 <= j < r.value ==> rows[j].name != name
    ensures r.None? <==> forall j :: 0 <= j < |rows| ==> rows[j].name != name
  {
    if |rows| == 0 then None
    else if rows[0].name == name then Some(0)
    else match Find(rows[1..], name) {
      case None => None
      case Some(k) => Some(k + 1)
    }
  }

  /** A row as the row factory hands it over, with its levels decoded; undecodable text raises. */
  function Read(row: Row): (r: Result<Worker, DbError>)
    ensures r.Ok? <==> LevelsCodec.Decode(row.skillLevels).Ok?
    ensures r.Ok? ==> r.value.id == row.id && r.value.name == row.name
    ensures r.Ok? ==> LevelsCodec.Decode(row.skillLevels) == Ok(r.value.skillLevels)
  {
    match LevelsCodec.Decode(row.skillLevels) {
      case Err(e) => Err(e)
      case Ok(xs) => Ok(Worker(row.id, row.name, xs))
    }
  }

  /**
   * `insert_worker_into_db`: a name already present violates the UNIQUE
   * constraint and changes nothing; otherwise the row is appended with the
   * next id from the counter.
   */
  function Insert(t: Table, name: string, levels: seq<int>): (r: Write)
    ensures Valid(t) ==> Valid(r.table)
    ensures r.error.Some? <==> HasName(t, name)
    ensures r.error.Some? ==> r.error == Some(LevelsCodec.IntegrityError) && r.table == t
    ensures r.error.None? ==>
      && |r.table.rows| == |t.rows| + 1
      && r.table.rows[..|t.rows|] == t.rows
      && r.table.rows[|t.rows|].name == name
      && LevelsCodec.Decode(r.table.rows[|t.rows|].skillLevels) == Ok(levels)
    ensures r.error.None? ==> r.table.rows[|t.rows|].id > t.lastId && r.table.lastId >= t.lastId
  {
    if Find(t.rows, name).Some? then Write(t, Some(LevelsCodec.IntegrityError))
    else
      LevelsCodec.DecodeEncode(levels);
      var row := Row(t.lastId + 1, name, LevelsCodec.Encode(levels));
      assert (t.rows + [row])[..|t.rows|] == t.rows;
      Write(Table(t.rows + [row], t.lastId + 1), None)
  }

  /** In a valid table every stored id is below the one the next insert receives. */
  lemma InsertIdFresh(t: Table, name: string, levels: seq<int>)
    requires Valid(t)
    requires Insert(t, name, levels).error.None?
    ensures forall i :: 0 <= i < |t.rows| ==> t.rows[i].id < Insert(t, name, levels).table.rows[|t.rows|].id
  {
  }

  /**
   * `get_worker_from_db_by_name`: the row with that name with its levels
   * decoded, or `None` when no row has it.
   */
  function GetByName(t: Table, name: string): (r: Result<Option<Worker>, DbError>)
    ensures !HasName(t, name) ==> r == Ok(None)
    ensures Valid(t) && HasName(t, name) ==> r.Ok? && r.value.Some? && r.value.value.name == name
    ensures Valid(t) ==> forall i :: 0 <= i < |t.rows| && t.rows[i].name == name ==>
      r == Ok(Some(Worker(t.rows[i].id, name, LevelsCodec.Decode(t.rows[i].skillLevels).value)))
  {
    match Find(t.rows, name) {
      case None => Ok(None)
      case Some(i) =>
        match Read(t.rows[i]) {
          case Err(e) => Err(e)
          case Ok(w) => Ok(Some(w))
        }
    }
  }

  /** `get_all_workers_from_db`: every row, in table order, decoded. */
  function GetAll(t: Table): (r: Result<seq<Worker>, DbError>)
    ensures Valid(t) ==> r.Ok? && |r.value| == |t.rows|
    ensures r.Ok? ==> |r.value| == |t.rows| && forall i :: 0 <= i < |t.rows| ==>
      Read(t.rows[i]) == Ok(r.value[i])
  {
    ReadAll(t.rows)
  }

  function ReadAll(rows: seq<Row>): (r: Result<seq<Worker>, DbError>)
    ensures (forall i :: 0 <= i < |rows| ==> LevelsCodec.Decode(rows[i].skillLevels).Ok?) ==> r.Ok?
    ensures r.Ok? ==> |r.value| == |rows| && forall i :: 0 <= i < |rows| ==> Read(rows[i]) == Ok(r.value[i])
  {
    if |rows| == 0 then Ok([])
    else match Read(rows[0]) {
      case Err(e) => Err(e)
      case Ok(w) =>
        match ReadAll(rows[1..]) {
          case Err(e) => Err(e)
          case Ok(ws) =>
            assert forall i :: 1 <= i < |rows| ==> rows[i] == rows[1..][i - 1];
            Ok([w] + ws)
        }
    }
  }

  /**
   * `update_worker_in_db`: `UPDATE ... WHERE name=old_name`. With no such row
   * nothing happens; a new name held by a different row violates the UNIQUE
   * constraint and nothing happens; otherwise that one row takes the new name
   * and levels, keeping its id and position.
   */
  function Update(t: Table, oldName: string, newName: string, levels: seq<int>): (r: Write)
    requires Valid(t)
    ensures Valid(r.table)
    ensures r.table.lastId == t.lastId && |r.table.rows| == |t.rows|
    ensures !HasName(t, oldName) ==> r == Write(t, None)
    ensures r.error.Some? ==> r.error == Some(LevelsCodec.IntegrityError) && r.table == t
    ensures r.error.Some? <==> HasName(t, oldName) && oldName != newName && HasName(t, newName)
    ensures forall i :: 0 <= i < |t.rows| && t.rows[i].name != oldName ==> r.table.rows[i] == t.rows[i]
    ensures r.error.None? ==> forall i :: 0 <= i < |t.rows| && t.rows[i].name == oldName ==>
      && r.table.rows[i].id == t.rows[i].id
      && r.table.rows[i].name == newName
      && LevelsCodec.Decode(r.table.rows[i].skillLevels) == Ok(levels)
  {
    match Find(t.rows, oldName) {
      case None => Write(t, None)
      case Some(i) =>
        var clash := Find(t.rows, newName);
        if clash.Some? && clash.value != i then
          assert oldName != newName;
          Write(t, Some(LevelsCodec.IntegrityError))
        else
          UpdateRowFacts(t, i, newName, levels);
          UpdateAt(t, i, newName, levels)
    }
  }

  /** Rewriting row `i` of a valid table touches no row with another name. */
  lemma UpdateRowFacts(t: Table, i: nat, newName: string, levels: seq<int>)
    requires Valid(t) && i < |t.rows|
    requires forall j :: 0 <= j < |t.rows| && j != i ==> t.rows[j].name != newName
    ensures forall j :: 0 <= j < |t.rows| && t.rows[j].name != t.rows[i].name ==>
      UpdateAt(t, i, newName, levels).table.rows[j] == t.rows[j]
    ensures forall j :: 0 <= j < |t.rows| && t.rows[j].name == t.rows[i].name ==>
      && j == i
      && UpdateAt(t, i, newName, levels).table.rows[j].id == t.rows[j].id
      && UpdateAt(t, i, newName, levels).table.rows[j].name == newName
      && LevelsCodec.Decode(UpdateAt(t, i, newName, levels).table.rows[j].skillLevels) == Ok(levels)
  {
    LevelsCodec.DecodeEncode(levels);
  }

  function UpdateAt(t: Table, i: nat, newName: string, levels: seq<int>): (r: Write)
    requires Valid(t) && i < |t.rows|
    requires forall j :: 0 <= j < |t.rows| && j != i ==> t.rows[j].name != newName
    ensures Valid(r.table) && r.error.None?
    ensures r.table == Table(t.rows[i := Row(t.rows[i].id, newName, LevelsCodec.Encode(levels))], t.lastId)
  {
    var row := Row(t.rows[i].id, newName, LevelsCodec.Encode(levels));
    ReplaceRowValid(t, i, row, levels);
    Write(Table(t.rows[i := row], t.lastId), None)
  }

  lemma ReplaceRowValid(t: Table, i: nat, row: Row, levels: seq<int>)
    requires Valid(t) && i < |t.rows|
    requires row.id == t.rows[i].id && row.skillLevels == LevelsCodec.Encode(levels)
    requires forall j :: 0 <= j < |t.rows| && j != i ==> t.rows[j].name != row.name
    ensures Valid(Table(t.rows[i := row], t.lastId))
  {
    LevelsCodec.DecodeEncode(levels);
  }

  /**
   * `delete_worker_from_db`: the row with that name is gone, every other row
   * stays in order; an absent name changes nothing. The counter is kept, so a
   * deleted id is never handed out again.
   */
  function Delete(t: Table, name: string): (r: Table)
    requires Valid(t)
    ensures Valid(r) && !HasName(r, name) && r.lastId == t.lastId
    ensures !HasName(t, name) ==> r == t
    ensures forall i :: 0 <= i < |t.rows| && t.rows[i].name == name ==>
      r.rows == t.rows[..i] + t.rows[i + 1..]
  {
    match Find(t.rows, name) {
      case None => t
      case Some(i) =>
        RemoveRowValid(t, i);
        Table(t.rows[..i] + t.rows[i + 1..], t.lastId)
    }
  }

  lemma RemoveRowValid(t: Table, i: nat)
    requires Valid(t) && i < |t.rows|
    ensures Valid(Table(t.rows[..i] + t.rows[i + 1..], t.lastId))
    ensures !HasName(Table(t.rows[..i] + t.rows[i + 1..], t.lastId), t.rows[i].name)
  {
    var rows := t.rows[..i] + t.rows[i + 1..];
    assert forall k :: 0 <= k < |rows| ==> rows[k] == t.rows[if k < i then k else k + 1];
  }

  /** Adding a worker and reading it back by name gives the same name and levels. */
  lemma InsertThenGet(t: Table, name: string, levels: seq<int>)
    requires Valid(t) && !HasName(t, name)
    ensures GetByName(Insert(t, name, levels).table, name) == Ok(Some(Worker(t.lastId + 1, name, levels)))
  {
    var t' := Insert(t, name, levels).table;
    assert t'.rows[|t.rows|].name == name;
  }

  /** After a successful rename, the levels are found under the new name and the old name is gone. */
  lemma UpdateThenGet(t: Table, oldName: string, newName: string, levels: seq<int>)
    requires Valid(t) && HasName(t, oldName)
    requires Update(t, oldName, newName, levels).error.None?
    ensures GetByName(Update(t, oldName, newName, levels).table, newName).Ok?
    ensures GetByName(Update(t, oldName, newName, levels).table, newName).value.Some?
    ensures GetByName(Update(t, oldName, newName, levels).table, newName).value.value.skillLevels == levels
    ensures oldName != newName ==> !HasName(Update(t, oldName, newName, levels).table, oldName)
  {
    var i :| 0 <= i < |t.rows| && t.rows[i].name == oldName;
    var t' := Update(t, oldName, newName, levels).table;
    assert t'.rows[i].name == newName;
  }

  /** Deleting a name twice is the same as deleting it once. */
  lemma DeleteIdempotent(t: Table, name: string)
    requires Valid(t)
    ensures Delete(Delete(t, name), name) == Delete(t, name)
  {
  }
}

=== FILE: wrappers.dfy ===
/** Failure-carrying result types shared by every module of the model. */
module Wrappers {

  /** A value that may be absent: Python's `None` versus a value. */
  datatype Option<+T> = None | Some(value: T)

  /** The outcome of an operation that may raise: `Ok` or the exception it raised. */
  datatype Result<+T, +E> = Ok(value: T) | Err(error: E)
}
